=== FILE: README.md ===
# Coaching app workout builder — a Dafny model

This project models the logic core of a coaching web application. Coaches
build running and strength workouts, and manage their athletes, workouts,
exercise catalogue and messages. The model covers:

- **The workout builder** (`RunningBuilder`, `StrengthBuilder`, `Assignment`).
  It edits a two-level tree. A running workout holds segments, and an
  interval-group segment holds intervals. A strength workout holds exercises,
  and each exercise holds sets. Every edit is a pure update of the workout
  value: it appends a node, merges a partial update (`{...node, ...updates}`)
  into the node with a matching id, or filters out the node with that id. The
  builder also has the "Assign Athletes" checkboxes and the muscle-group tally
  of the strength sidebar.
- **The list pages.** These are the athlete roster (`Roster`), the workout
  list (`WorkoutList`), the exercise catalogue hook (`Catalogue`) and the
  messages page (`Messaging`). Each is a filter, sort or lookup over a list,
  plus badge mappings and summary counts.
- **The data model** (`Types`): the variant enumerations, the 1–5 intensity
  range, and the optional fields of segments, intervals and sets.
- **The language primitives the pages rely on.** `Seqs` holds `filter`,
  `map`, `find` and `Set` de-duplication. `Sorting` holds the stable
  `Array.prototype.sort`. `Text` holds `toLowerCase`, `includes`, `trim`,
  string ordering and the decimal rendering of a count.

Two parts are modelled as classes whose methods update fields: the catalogue
hook (the exercise list and the loading flag) and the messages page (the
selection, the draft and the search box). Elsewhere the pages also keep React
state (the workout being built, the roster's search, status filter and sort
mode, the workout list's filters), but each handler replaces a whole value.
Those handlers are modelled as functions of the old value, and the filters
as parameters of the list queries.

Every read of `Date.now().toString()` is a parameter of its own. `stamp` is
the id of a new segment, interval, exercise or set. `workStamp` and
`restStamp` feed the ids of the two default intervals of an interval block,
and `setStamp` the id of a new exercise's first set. Reads within one handler
usually return the same millisecond, but the model does not assume so.
Derived ids append the source's suffixes (`workStamp + "_1"`,
`restStamp + "_2"`, `setStamp + "_set1"`). The source never checks that ids
are unique, so uniqueness appears only as a precondition of the lemmas that
need it, and the removals state how many copies of each kept node survive.

Behaviours of the code that the model keeps as written:

- The interval operations (`addIntervalToGroup`, `updateInterval`,
  `removeInterval`) act on any segment with the id, whatever its type, and
  `addIntervalToGroup` creates the interval list when it is absent.
- The athlete checkbox handler appends the id on "checked" and removes every
  copy of it on "unchecked" (`Assignment.CheckAssignedDuplicates`). The
  checkbox is controlled by `includes(id)`, so in use it never asks to add an
  id that is already present (`Assignment.ClickKeepsNoDuplicates`).
- The strength helpers are declared inside the running branch of the builder
  page, but the strength branch refers to them
  (src/app/coach/workouts/create/page.tsx:262-335, and the call sites at 802,
  833, 845, 864 and 891). At those call sites they are out of scope. The
  model gives their bodies as written.
- The "Last Activity" comparator subtracts `new Date(...)` values of text
  such as "2 hours ago". Such text is an invalid date, so the comparator
  yields NaN, and `sort` reads NaN as 0. That mode therefore keeps the
  filtered order (`Roster.UnrankedModesKeepOrder`).
- Completion rates are numbers, not only integers: the model takes them as
  reals, so a rate of 89.5 is yellow, as in the source.

## Model

| member | source | states |
|---|---|---|
| Types.ParseIntervalType | src/app/coach/workouts/create/page.tsx:582 | the interval type selector's value reads back only as the type whose literal it is |
| Types.IntervalTypeRoundTrip | src/types/index.ts:104 | every interval type survives a trip through its selector literal |
| Types.ExerciseTypeNamesDistinct | src/types/index.ts:57 | the four exercise type literals are pairwise distinct |
| RunningBuilder.MergeSegmentIdempotent | src/app/coach/workouts/create/page.tsx:203-205 | spreading the same partial update twice equals spreading it once |
| RunningBuilder.MergeSegmentEmpty | src/app/coach/workouts/create/page.tsx:203-205 | spreading an update that names no field leaves the segment unchanged |
| RunningBuilder.NewSegment | src/app/coach/workouts/create/page.tsx:165-191 | default name per type; duration 10 and intensity 1 for warm-up/cool-down, else 30 and 3; only an interval group gets repetitions 4 and the Work (3, intensity 4) then Rest (1, intensity 1) intervals, whose ids come from their own clock reads with the suffixes _1 and _2 |
| RunningBuilder.AddRunningSegment | src/app/coach/workouts/create/page.tsx:164-198 | exactly one new segment is appended at the end; earlier segments and every other workout field are unchanged |
| RunningBuilder.UpdateSegment | src/app/coach/workouts/create/page.tsx:200-207 | same length and order; segments with the id get the merged update, all others are unchanged, and so is the rest of the workout |
| RunningBuilder.RemoveSegment | src/app/coach/workouts/create/page.tsx:209-214 | the result is a subsequence of the segments in which every segment whose id differs keeps all its copies and no segment with the id remains; other workout fields are unchanged |
| RunningBuilder.AddIntervalToGroup | src/app/coach/workouts/create/page.tsx:216-234 | every segment with the id, of any type, gets one work interval ("Interval", 2, intensity 3, bare stamp as id) at the end of its list, created if absent; no other segment changes |
| RunningBuilder.UpdateInterval | src/app/coach/workouts/create/page.tsx:236-248 | inside segments with the group id, intervals with the interval id get the merged update, with length and order kept; an absent interval list stays absent; nothing else changes |
| RunningBuilder.RemoveInterval | src/app/coach/workouts/create/page.tsx:250-260 | inside segments with the group id, the interval list becomes the subsequence of intervals without that id, every other interval keeping all its copies; an absent list stays absent; nothing else changes |
| RunningBuilder.UpdateSegmentMissing | src/app/coach/workouts/create/page.tsx:200-207 | updating an id no segment carries returns the workout unchanged |
| RunningBuilder.UpdateSegmentIdempotent | src/app/coach/workouts/create/page.tsx:200-207 | repeating an update that keeps the id changes nothing more |
| RunningBuilder.UpdateIntervalMissing | src/app/coach/workouts/create/page.tsx:236-248 | updating an interval id the group does not hold returns the workout unchanged |
| RunningBuilder.RemoveSegmentMissing | src/app/coach/workouts/create/page.tsx:209-214 | removing an id no segment carries returns the workout unchanged |
| RunningBuilder.AddThenRemoveSegment | src/app/coach/workouts/create/page.tsx:164-214 | removing the segment just added under a fresh stamp restores the workout exactly |
| RunningBuilder.AddThenRemoveInterval | src/app/coach/workouts/create/page.tsx:216-260 | removing the interval just added under a fresh stamp restores every group's list; a matching segment that had no list is left with an empty one |
| RunningBuilder.ReachableSplit | src/app/coach/workouts/create/page.tsx:209-214 | the intervals of the kept segments and those of the removed segments together are the intervals of the whole list |
| RunningBuilder.RemoveSegmentCascades | src/app/coach/workouts/create/page.tsx:209-214 | removing a segment takes exactly its own intervals with it; every other interval stays reachable |
| RunningBuilder.IntervalBlockScenario | src/app/coach/workouts/create/page.tsx:164-234 | an interval block added to an empty workout has repetitions 4; adding an interval gives work, rest, work; removing the block leaves no segment and no interval |
| StrengthBuilder.NewStrengthExercise | src/app/coach/workouts/create/page.tsx:263-276 | muscle group is the first catalogue group if non-empty, else "General"; description is the instructions, else the description, else "No description available"; exactly one set (10 reps, weight 0, rest 2), whose id comes from a second clock read with the suffix _set1 |
| StrengthBuilder.AddExerciseToWorkout | src/app/coach/workouts/create/page.tsx:263-283 | exactly one new exercise is appended; earlier exercises and every other workout field are unchanged |
| StrengthBuilder.RemoveExerciseFromWorkout | src/app/coach/workouts/create/page.tsx:285-290 | the result is the subsequence of exercises whose id differs, every copy of each kept, with their sets; other fields are unchanged |
| StrengthBuilder.AddSetToExercise | src/app/coach/workouts/create/page.tsx:292-309 | each exercise with the id gets one default set with the bare stamp as id at the end; no other exercise changes |
| StrengthBuilder.RemoveSetFromExercise | src/app/coach/workouts/create/page.tsx:311-321 | inside exercises with the id, the sets become the subsequence without the set id, every other set keeping all its copies; other exercises are unchanged |
| StrengthBuilder.UpdateSet | src/app/coach/workouts/create/page.tsx:323-335 | inside exercises with the id, sets with the set id get the merged update, with length and order kept; nothing else changes |
| StrengthBuilder.MuscleGroupCount | src/app/coach/workouts/create/page.tsx:930 | a palette group's count never exceeds the number of exercises |
| StrengthBuilder.AddExerciseCount | src/app/coach/workouts/create/page.tsx:263-283 | adding an exercise raises a group's count by one exactly when the new muscle group contains the group name, ignoring case |
| StrengthBuilder.RemoveExerciseCount | src/app/coach/workouts/create/page.tsx:285-290 | removing an exercise never raises a group's count |
| StrengthBuilder.SubsequenceFilterLength | src/app/coach/workouts/create/page.tsx:930 | a subsequence never has more items passing a filter than the sequence it came from |
| StrengthBuilder.AddThenRemoveExercise | src/app/coach/workouts/create/page.tsx:263-290 | removing the exercise just added under a fresh stamp restores the workout exactly |
| StrengthBuilder.UpdateSetMissing | src/app/coach/workouts/create/page.tsx:323-335 | updating a set id that no exercise with the exercise id holds (in particular, an exercise id that is not present) returns the workout unchanged |
| StrengthBuilder.AddThenRemoveSet | src/app/coach/workouts/create/page.tsx:292-321 | removing the set just added under a fresh stamp restores the workout exactly |
| StrengthBuilder.ReachableSetsSplit | src/app/coach/workouts/create/page.tsx:285-290 | the sets of the kept exercises and those of the removed exercises together are the sets of the whole list |
| StrengthBuilder.RemoveExerciseCascades | src/app/coach/workouts/create/page.tsx:285-290 | removing an exercise takes exactly its own sets with it; every other set stays reachable |
| StrengthBuilder.StrengthScenario | src/app/coach/workouts/create/page.tsx:263-309 | one exercise added to an empty workout has one default set (10, 0, 2); adding a set gives two; removing the exercise leaves none |
| Assignment.OnAssignChange | src/app/coach/workouts/create/page.tsx:687-698 | checking appends the id at the end; unchecking leaves a subsequence without the id that keeps every copy of every other id |
| Assignment.AssignRunning | src/app/coach/workouts/create/page.tsx:686-699 | after the change the athlete is assigned exactly when the box is checked; no other field of the running workout changes |
| Assignment.AssignStrength | src/app/coach/workouts/create/page.tsx:946-959 | after the change the athlete is assigned exactly when the box is checked; no other field of the strength workout changes |
| Assignment.ClickKeepsNoDuplicates | src/app/coach/workouts/create/page.tsx:686-699 | when the click asks for the opposite of the current state, as the controlled box does, a list without repeats stays without repeats |
| Assignment.FilterNoDuplicates | src/app/coach/workouts/create/page.tsx:696 | filtering a list without repeats leaves no repeats |
| Assignment.CheckThenUncheck | src/app/coach/workouts/create/page.tsx:687-698 | checking an unassigned athlete and unchecking them again restores the list |
| Assignment.UncheckIdempotent | src/app/coach/workouts/create/page.tsx:693-698 | a second uncheck changes nothing |
| Assignment.CheckAssignedDuplicates | src/app/coach/workouts/create/page.tsx:688-692 | a "checked" event for an athlete already in the list adds a second copy |
| Roster.OrderConsistent | src/app/coach/athletes/page.tsx:174-187 | every sort mode is a consistent comparator (sign flips on swap; "not after" is transitive) |
| Roster.FilteredAthletes | src/app/coach/athletes/page.tsx:167-187 | an athlete is listed iff the name or email contains the search ignoring case and the status filter is "all" or equal; the list is ordered by the selected mode |
| Roster.FilteredAthletesPermutation | src/app/coach/athletes/page.tsx:167-187 | each matching athlete appears exactly as often as in the roster, and no other athlete appears |
| Roster.NeutralRosterKeepsAll | src/app/coach/athletes/page.tsx:167-173 | with no search and the status "all", every athlete is listed, as often as in the roster |
| Roster.FilteredAthletesStable | src/app/coach/athletes/page.tsx:174-187 | athletes the mode ranks equal keep their roster order |
| Roster.UnrankedModesKeepOrder | src/app/coach/athletes/page.tsx:183-186 | "lastActivity" and any unknown mode leave the filtered order unchanged |
| Roster.CompletionRateDescends | src/app/coach/athletes/page.tsx:180-181 | in "completionRate" mode, a higher rate never follows a lower one |
| Roster.StatusColor | src/app/coach/athletes/page.tsx:189-200 | active, trial and inactive get emerald, blue and red badges; anything else gets grey |
| Roster.StatusColorsDistinct | src/app/coach/athletes/page.tsx:189-200 | the three statuses get three different badges, none of them the grey fallback |
| Roster.CompletionColor | src/app/coach/athletes/page.tsx:202-206 | emerald iff the rate is at least 90, yellow iff it is at least 75 and below 90, red iff below 75, for any real rate |
| Roster.CompletionColorMonotone | src/app/coach/athletes/page.tsx:202-206 | a higher rate never gets a worse colour |
| Roster.ActiveCount | src/app/coach/athletes/page.tsx:300 | the "Active" figure never exceeds the roster size |
| Roster.ActiveCountIsActiveListing | src/app/coach/athletes/page.tsx:300 | the "Active" figure equals the length of the listing under status "active" with no search |
| Roster.UnreadZeroIffAllRead | src/app/coach/athletes/page.tsx:328 | the unread total is zero exactly when every athlete's unread count is zero |
| Roster.UnreadTotalConcat | src/app/coach/athletes/page.tsx:328 | the unread total of two rosters joined is the sum of their totals |
| WorkoutList.FilterWorkouts | src/app/coach/workouts/page.tsx:100-107 | a workout is listed iff the name or description contains the search ignoring case, the status filter is "all" or equal, and the type filter is "all" or equal; the result is a subsequence in which each listed workout keeps every copy it has in the list |
| WorkoutList.NeutralFiltersKeepAll | src/app/coach/workouts/page.tsx:100-107 | with no search and both filters "all", every workout is listed in order |
| WorkoutList.GetStatusDisplay | src/app/coach/workouts/page.tsx:110-121 | draft, assigned and completed get their colours and the texts "Draft", "Assigned", "Completed"; the text is "Unknown" iff the status is none of these |
| WorkoutList.StatusTextDistinguishes | src/app/coach/workouts/page.tsx:110-121 | a known status is the only status with its badge text |
| WorkoutList.CountStatus | src/app/coach/workouts/page.tsx:216 | a status figure never exceeds the number of workouts |
| WorkoutList.StatusTilesPartitionTotal | src/app/coach/workouts/page.tsx:203-244 | the Assigned, Completed and Drafts figures sum to at most the total, and to exactly the total iff every workout has one of those statuses |
| WorkoutList.CountStatusIsListing | src/app/coach/workouts/page.tsx:216 | a status figure equals the length of the listing under that status with no search and type "all" |
| WorkoutList.AssignmentLabel | src/app/coach/workouts/page.tsx:298-301 | the label is "Not assigned" exactly when no athlete is assigned |
| WorkoutList.AssignmentLabelReadsBack | src/app/coach/workouts/page.tsx:298-301 | otherwise the label is a decimal number followed by " athletes", and the number reads back as the count of assigned athletes |
| Catalogue.WithId | src/hooks/useExercises.tsx:290-293 | the new exercise carries the given id and exactly the supplied fields |
| Catalogue.FilterExercises | src/hooks/useExercises.tsx:266-281 | an exercise is kept iff it passes every given filter (type equal, group present, search in name or some group ignoring case); the result is a subsequence in which each kept exercise keeps every copy it has in the catalogue |
| Catalogue.NoFiltersKeepAll | src/hooks/useExercises.tsx:271-280 | with every filter absent or empty, the whole catalogue is returned in order |
| Catalogue.FilterComposes | src/hooks/useExercises.tsx:271-280 | filtering by one set of criteria and then another equals filtering once by both |
| Catalogue.SearchIgnoresCase | src/hooks/useExercises.tsx:275-277 | the search term's letter case does not change which exercises it hits |
| Catalogue.GetExerciseById | src/hooks/useExercises.tsx:284-286 | the result is the first exercise with the id, or nothing iff no exercise has it |
| Catalogue.AllMuscleGroups | src/hooks/useExercises.tsx:301 | the flattened list holds exactly the muscle groups of the exercises |
| Catalogue.TypeNames | src/hooks/useExercises.tsx:307 | the mapped list holds each exercise's type literal at its position |
| Catalogue.GetMuscleGroups | src/hooks/useExercises.tsx:300-303 | strictly ascending (so no repeats), and holds exactly the groups used by some exercise |
| Catalogue.GetExerciseTypes | src/hooks/useExercises.tsx:306-309 | strictly ascending, holds exactly the types used, and has at most four entries |
| Catalogue.TypesBounded | src/types/index.ts:57 | a strictly ascending list of type literals has at most four entries |
| Catalogue.DistinctBound | src/hooks/useExercises.tsx:308 | a list without repeats drawn from a set is no longer than the set |
| Catalogue.ExerciseStore.constructor | src/hooks/useExercises.tsx:249-252 | the hook starts with no exercises and loading set |
| Catalogue.ExerciseStore.Load | src/hooks/useExercises.tsx:254-263 | when the load completes the catalogue is installed and loading ends |
| Catalogue.ExerciseStore.CreateCustomExercise | src/hooks/useExercises.tsx:289-297 | the returned exercise is the supplied data under the stamp as id; it is appended and earlier exercises are unchanged |
| Catalogue.CreatedIsFound | src/hooks/useExercises.tsx:284-297 | after creating under a fresh stamp, looking the stamp up finds the new exercise |
| Catalogue.CreateKeepsOtherLookups | src/hooks/useExercises.tsx:284-297 | creating an exercise does not change what any other id finds |
| Catalogue.FindAppend | src/hooks/useExercises.tsx:285 | appending an element that fails the test does not change what `find` returns |
| Catalogue.FindAppendHit | src/hooks/useExercises.tsx:285 | appending the only element that passes the test makes `find` return it |
| Messaging.FilteredConversations | src/app/coach/messages/page.tsx:146-148 | a conversation is listed iff the athlete name contains the search ignoring case; the result is a subsequence in which each listed conversation keeps every copy |
| Messaging.EmptySearchListsAll | src/app/coach/messages/page.tsx:146-148 | an empty search lists every conversation in order |
| Messaging.SelectedConv | src/app/coach/messages/page.tsx:145 | nothing while no conversation is selected; otherwise the first conversation with the selected id, or nothing iff none has it |
| Messaging.SendDisabledIffWhiteSpace | src/app/coach/messages/page.tsx:295 | the send button is disabled exactly when the draft is all white space |
| Messaging.SendBlockedRefinesButton | src/app/coach/messages/page.tsx:151 | sending is refused exactly when the button is disabled or the selection is absent or empty |
| Messaging.MessagesPage.constructor | src/app/coach/messages/page.tsx:33-36 | nothing selected, empty draft, empty search |
| Messaging.MessagesPage.SelectConversation | src/app/coach/messages/page.tsx:203 | clicking a conversation selects its id and leaves the draft and search alone |
| Messaging.MessagesPage.TypeDraft | src/app/coach/messages/page.tsx:286 | typing replaces the draft only |
| Messaging.MessagesPage.TypeSearch | src/app/coach/messages/page.tsx:190 | typing replaces the search only |
| Messaging.MessagesPage.SendMessage | src/app/coach/messages/page.tsx:150-156 | a blank draft or no selection does nothing; otherwise the draft is logged and cleared; the selection, search and conversations never change |
| Messaging.MessagesPage.HandleKeyPress | src/app/coach/messages/page.tsx:158-163 | Enter without Shift is intercepted and sends as the button does; any other key, Shift+Enter included, changes nothing |
| Seqs.Filter | src/app/coach/athletes/page.tsx:168 | `filter` keeps exactly the items that pass, as a subsequence |
| Seqs.FilterMultiplicity | src/app/coach/athletes/page.tsx:168 | each kept value keeps its multiplicity; every other value disappears |
| Seqs.FilterMultiset | src/app/coach/workouts/create/page.tsx:212 | the same multiplicity law, for every value at once |
| Seqs.Find | src/hooks/useExercises.tsx:285 | `find` returns the first item that passes, or nothing iff none does |
| Seqs.Dedup | src/hooks/useExercises.tsx:302 | `new Set` keeps every value once and adds nothing |
| Sorting.SortSorted | src/app/coach/athletes/page.tsx:174 | `sort` with a consistent comparator returns an ordered sequence |
| Sorting.SortStable | src/app/coach/athletes/page.tsx:174 | `sort` keeps the relative order of items that compare equal |
| Sorting.SortOfSorted | src/app/coach/athletes/page.tsx:184-186 | `sort` returns an already ordered sequence unchanged |
| Sorting.StringCompareConsistent | src/app/coach/athletes/page.tsx:177 | string order is a consistent comparator |
| Sorting.SortedUnique | src/hooks/useExercises.tsx:302 | `[...new Set(s)].sort()` is strictly ascending and holds exactly the values of `s` |
| Text.ContainsIffOccurs | src/app/coach/athletes/page.tsx:169 | `includes` holds exactly when the term occurs at some position |
| Text.IncludesEmpty | src/app/coach/athletes/page.tsx:169 | an empty search matches every string |
| Text.LowerIdempotent | src/hooks/useExercises.tsx:275 | lower-casing twice is lower-casing once |
| Text.BlankIffAllWhiteSpace | src/app/coach/messages/page.tsx:151 | `!s.trim()` holds exactly when every character is white space |
| Text.CompareZeroIffEqual | src/app/coach/athletes/page.tsx:177 | strings compare equal exactly when they are equal |
| Text.CompareAntisymmetric | src/app/coach/athletes/page.tsx:177 | swapping the arguments flips the sign |
| Text.CompareTransitive | src/app/coach/athletes/page.tsx:177 | "not after" is transitive |
| Text.ParseNatToString | src/app/coach/workouts/page.tsx:299 | the decimal rendering of a count reads back as the count |

## Left out

- I/O and timing: each `Date.now()` read becomes a parameter. The half-second simulated delay of the catalogue load is not modelled; `Load` is the state change when it completes. `console.log` becomes the result of `SendMessage`.
- `parseInt`/`parseFloat` coercion of form inputs: the parsed value is an input to the update. An empty intensity select gives NaN, which the `Intensity` type excludes.
- The field setters of the builder forms (name, description, notes, date), which replace one field of the workout; the URL query read that picks the workout type; the initial form values; the templates list.
- Date formatting (`formatDate`) and date parsing. `joinedDate` is an ISO `YYYY-MM-DD` string, for which string order is time order, so the "joinedDate" comparator compares the strings in reverse. "lastActivity" is relative text that never parses, so that comparator is 0.
- Seqs.Dedup: does not state that the values keep the order of their first occurrences, because the only caller sorts the result.
- Roster.UnreadTotal, Roster.UnreadZeroIffAllRead: unread counts are taken as non-negative whole numbers (`nat`), the only kind of count the page holds; on arbitrary numbers a total of 0 would not imply that every count is 0.
- Roster.AthleteOrder: only the sign of each comparator is modelled, because `sort` uses nothing else.
- The average completion rate tile (`Math.round` of a floating-point mean, NaN for an empty roster).
- Text.LowerChar: folds only ASCII A–Z; full Unicode case mapping is not modelled.
- Text.Compare: `localeCompare` and the default `sort()` order are modelled as code-point lexicographic order. Locale collation and the UTF-16 code-unit order of characters outside the Basic Multilingual Plane are not modelled.
- The builder reads a catalogue exercise's groups only as `exercise.muscle_groups?.[0]`; the model names that field `muscleGroups`. The catalogue exercise's `muscleGroup` field is carried but the builder never reads it. The literal mock catalogue, rosters, workouts and conversations are not modelled; every operation takes its list as a parameter.
- The compose dialog (`showCompose`) and the view-mode toggle of the roster: UI state with no logic.
- The average RPE of a workout review (src/app/coach/workouts/[id]/review/page.tsx) and the athlete dashboard's progress width: floating-point projections on pages outside this model.
- Authentication, routing, layout and the static pages.

=== FILE: assign.dfy ===
/**
 * The "Assign Athletes" checkboxes of both builder forms. Each box shows
 * `assignedAthletes.includes(id)`; its change handler appends the id when the
 * box becomes checked and filters every copy of it out when it becomes
 * unchecked.
 */
module Assignment {
  import opened Seqs
  import opened Types

  predicate Differs(a: string, id: string) {
    a != id
  }

  /** The filter predicate `a => a !== id`. */
  function IsNot(id: string): string -> bool {
    (a: string) => Differs(a, id)
  }

  /** The new `assignedAthletes` after the checkbox for `id` changes to `checked`. */
  function OnAssignChange(ids: seq<string>, id: string, checked: bool): (r: seq<string>)
    ensures checked ==> r == ids + [id]
    ensures !checked ==> id !in r && IsSubsequence(r, ids)
    ensures !checked ==> forall a :: a in ids && a != id ==> a in r
    ensures !checked ==> forall a :: multiset(r)[a] == if a != id then multiset(ids)[a] else 0
  {
    if checked then ids + [id]
    else
      FilterMultiset(ids, IsNot(id));
      Filter(ids, IsNot(id))
  }

  /** The checkbox handler of the running form: only the assignment list changes. */
  function AssignRunning(w: RunningWorkout, id: string, checked: bool): (r: RunningWorkout)
    ensures (id in r.assignedAthletes) == checked
    ensures r.(assignedAthletes := w.assignedAthletes) == w
  {
    w.(assignedAthletes := OnAssignChange(w.assignedAthletes, id, checked))
  }

  /** The checkbox handler of the strength form: only the assignment list changes. */
  function AssignStrength(w: StrengthWorkout, id: string, checked: bool): (r: StrengthWorkout)
    ensures (id in r.assignedAthletes) == checked
    ensures r.(assignedAthletes := w.assignedAthletes) == w
  {
    w.(assignedAthletes := OnAssignChange(w.assignedAthletes, id, checked))
  }

  /**
   * The box is controlled by `includes(id)`, so a click always asks for the
   * opposite of the current state; under that discipline the list never
   * holds an athlete twice.
   */
  lemma {:induction false} ClickKeepsNoDuplicates(ids: seq<string>, id: string, checked: bool)
    requires NoDuplicates(ids)
    requires checked == (id !in ids)
    ensures NoDuplicates(OnAssignChange(ids, id, checked))
  {
    if !checked {
      FilterNoDuplicates(ids, IsNot(id));
    } else {
      var r := ids + [id];
      forall i, j | 0 <= i < j < |r| ensures r[i] != r[j] {
        if j == |ids| {
          assert r[i] == ids[i];
        } else {
          assert r[i] == ids[i] && r[j] == ids[j];
        }
      }
    }
  }

  lemma {:induction false} FilterNoDuplicates<T>(s: seq<T>, p: T -> bool)
    requires NoDuplicates(s)
    ensures NoDuplicates(Filter(s, p))
  {
    NoDuplicatesMultiset(s);
    forall x ensures multiset(Filter(s, p))[x] <= 1 {
      FilterMultiplicity(s, p, x);
    }
    NoDuplicatesMultiset(Filter(s, p));
  }

  /** Checking an unassigned athlete and unchecking them again restores the list. */
  lemma CheckThenUncheck(ids: seq<string>, id: string)
    requires id !in ids
    ensures OnAssignChange(OnAssignChange(ids, id, true), id, false) == ids
  {
    FilterConcat(ids, [id], IsNot(id));
    FilterKeepsAll(ids, IsNot(id));
    assert Filter([id], IsNot(id)) == [];
  }

  /** Unchecking is idempotent: a second uncheck changes nothing. */
  lemma UncheckIdempotent(ids: seq<string>, id: string)
    ensures var once := OnAssignChange(ids, id, false);
            OnAssignChange(once, id, false) == once
  {
    var once := Filter(ids, IsNot(id));
    FilterKeepsAll(once, IsNot(id));
  }

  /**
   * The handler appends without looking: a `checked` event for an athlete
   * already in the list adds a second copy, which the controlled checkbox
   * never sends.
   */
  lemma CheckAssignedDuplicates(ids: seq<string>, id: string)
    requires id in ids
    ensures !NoDuplicates(OnAssignChange(ids, id, true))
  {
    var r := ids + [id];
    var i :| 0 <= i < |ids| && ids[i] == id;
    assert r[i] == r[|ids|];
  }
}

=== FILE: exercises.dfy ===
/**
 * The exercise catalogue hook `useExercises`: its state (the list and the
 * loading flag), the filter and lookup queries, the custom-exercise creator
 * and the sorted listings of muscle groups and types. The half-second
 * simulated delay of the load effect is not modelled; `Load` is what runs
 * when it completes. `stamp` stands for `Date.now().toString()`.
 */
module Catalogue {
  import opened Wrappers
  import opened Seqs
  import opened Sorting
  import opened Text
  import opened Types

  /** `Omit<Exercise, 'id'>`: what the caller of `createCustomExercise` supplies. */
  datatype ExerciseData = ExerciseData(
    name: string,
    kind: ExerciseType,
    muscleGroups: seq<string>,
    muscleGroup: string,
    instructions: Option<string>,
    description: Option<string>)

  /** `{...data, id}`. */
  function WithId(d: ExerciseData, id: string): (e: Exercise)
    ensures e.id == id && Strip(e) == d
  {
    Exercise(id, d.name, d.kind, d.muscleGroups, d.muscleGroup, d.instructions, d.description)
  }

  /** Everything but the id. */
  function Strip(e: Exercise): ExerciseData {
    ExerciseData(e.name, e.kind, e.muscleGroups, e.muscleGroup, e.instructions, e.description)
  }

  /** The optional filters of `filterExercises`; an absent or empty one does not filter. */
  datatype ExerciseFilters = ExerciseFilters(
    kind: Option<string>,
    muscleGroup: Option<string>,
    search: Option<string>)

  const NoFilters := ExerciseFilters(None, None, None)

  /** The search: the name or one of the muscle groups contains the term, ignoring case. */
  predicate SearchHit(e: Exercise, term: string) {
    || IncludesIgnoringCase(e.name, term)
    || exists k :: 0 <= k < |e.muscleGroups| && IncludesIgnoringCase(e.muscleGroups[k], term)
  }

  /** The callback of `exercises.filter`: each given filter must pass. */
  predicate Matches(f: ExerciseFilters, e: Exercise) {
    && (Truthy(f.kind) ==> ExerciseTypeName(e.kind) == f.kind.value)
    && (Truthy(f.muscleGroup) ==> f.muscleGroup.value in e.muscleGroups)
    && (Truthy(f.search) ==> SearchHit(e, f.search.value))
  }

  function MatchesAll(f: ExerciseFilters): Exercise -> bool {
    (e: Exercise) => Matches(f, e)
  }

  /** `filterExercises(filters)`: the matching exercises, in catalogue order. */
  function FilterExercises(exercises: seq<Exercise>, f: ExerciseFilters): (r: seq<Exercise>)
    ensures forall e :: e in r <==> e in exercises && Matches(f, e)
    ensures forall e :: multiset(r)[e] == if Matches(f, e) then multiset(exercises)[e] else 0
    ensures IsSubsequence(r, exercises)
  {
    FilterMultiset(exercises, MatchesAll(f));
    Filter(exercises, MatchesAll(f))
  }

  /** With every filter absent or empty, the whole catalogue is returned, in order. */
  lemma NoFiltersKeepAll(exercises: seq<Exercise>, f: ExerciseFilters)
    requires !Truthy(f.kind) && !Truthy(f.muscleGroup) && !Truthy(f.search)
    ensures FilterExercises(exercises, f) == exercises
  {
    FilterKeepsAll(exercises, MatchesAll(f));
  }

  /** Filtering by one criterion and then another is filtering by both. */
  lemma FilterComposes(exercises: seq<Exercise>, f: ExerciseFilters, g: ExerciseFilters, both: ExerciseFilters)
    requires forall e :: Matches(both, e) == (Matches(f, e) && Matches(g, e))
    ensures FilterExercises(FilterExercises(exercises, f), g) == FilterExercises(exercises, both)
  {
    FilterFilter(exercises, MatchesAll(f), MatchesAll(g), MatchesAll(both));
  }

  /** The search term's case does not matter. */
  lemma SearchIgnoresCase(e: Exercise, term: string)
    ensures SearchHit(e, term) == SearchHit(e, Lower(term))
  {
    LowerIdempotent(term);
  }

  function HasId(id: string): Exercise -> bool {
    (e: Exercise) => e.id == id
  }

  /** `getExerciseById(id)`: the first exercise with the id, or nothing. */
  function GetExerciseById(exercises: seq<Exercise>, id: string): (r: Option<Exercise>)
    ensures r.None? <==> forall e :: e in exercises ==> e.id != id
    ensures r.Some? ==> r.value.id == id && r.value in exercises
    ensures r.Some? ==> forall i :: 0 <= i < |exercises| && exercises[i].id == id ==> r.value in exercises[..i + 1]
  {
    Find(exercises, HasId(id))
  }

  /** `exercises.flatMap(e => e.muscle_groups)`. */
  function AllMuscleGroups(exercises: seq<Exercise>): (r: seq<string>)
    ensures forall x :: x in r ==> exists i :: 0 <= i < |exercises| && x in exercises[i].muscleGroups
    ensures forall i, k :: 0 <= i < |exercises| && 0 <= k < |exercises[i].muscleGroups| ==>
      exercises[i].muscleGroups[k] in r
  {
    if exercises == [] then []
    else exercises[0].muscleGroups + AllMuscleGroups(exercises[1..])
  }

  /** `exercises.map(e => e.type)`. */
  function TypeNames(exercises: seq<Exercise>): (r: seq<string>)
    ensures |r| == |exercises|
    ensures forall i :: 0 <= i < |exercises| ==> r[i] == ExerciseTypeName(exercises[i].kind)
  {
    if exercises == [] then [] else [ExerciseTypeName(exercises[0].kind)] + TypeNames(exercises[1..])
  }

  /** `getMuscleGroups()`: every muscle group used, once each, in ascending order. */
  function GetMuscleGroups(exercises: seq<Exercise>): (r: seq<string>)
    ensures StrictlyAscending(r)
    ensures forall g :: g in r <==> exists i :: 0 <= i < |exercises| && g in exercises[i].muscleGroups
  {
    var all := AllMuscleGroups(exercises);
    assert forall i, g :: 0 <= i < |exercises| && g in exercises[i].muscleGroups ==> g in all by {
      forall i, g | 0 <= i < |exercises| && g in exercises[i].muscleGroups ensures g in all {
        var k :| 0 <= k < |exercises[i].muscleGroups| && exercises[i].muscleGroups[k] == g;
      }
    }
    SortedUnique(all)
  }

  /** `getExerciseTypes()`: every type used, once each, in ascending order. */
  function GetExerciseTypes(exercises: seq<Exercise>): (r: seq<string>)
    ensures StrictlyAscending(r)
    ensures forall t :: t in r <==> exists i :: 0 <= i < |exercises| && t == ExerciseTypeName(exercises[i].kind)
    ensures |r| <= 4
  {
    var names := TypeNames(exercises);
    var r := SortedUnique(names);
    TypesBounded(r);
    r
  }

  /** A strictly ascending list of type names has at most one entry per type. */
  lemma TypesBounded(r: seq<string>)
    requires StrictlyAscending(r)
    requires forall t :: t in r ==> t in {"strength", "cardio", "flexibility", "other"}
    ensures |r| <= 4
  {
    forall i, j | 0 <= i < j < |r| ensures r[i] != r[j] {
      Text.CompareZeroIffEqual(r[i], r[j]);
    }
    var names := {"strength", "cardio", "flexibility", "other"};
    assert forall i :: 0 <= i < |r| ==> r[i] in r;
    DistinctBound(r, names);
  }

  /** A list without repeats drawn from a set is no longer than the set is large. */
  lemma {:induction false} DistinctBound<T>(r: seq<T>, values: set<T>)
    requires NoDuplicates(r)
    requires forall i :: 0 <= i < |r| ==> r[i] in values
    ensures |r| <= |values|
  {
    if r != [] {
      var rest := values - {r[0]};
      forall i | 0 <= i < |r| - 1 ensures r[1..][i] in rest {
        assert r[1..][i] == r[i + 1] != r[0];
      }
      DistinctBound(r[1..], rest);
    }
  }

  // ---------------------------------------------------------------------------
  // the hook's state

  class ExerciseStore {
    var exercises: seq<Exercise>
    var loading: bool

    /** The state before the load effect: no exercises, loading. */
    constructor ()
      ensures exercises == [] && loading
    {
      exercises := [];
      loading := true;
    }

    /** The load effect completing: the catalogue is installed and loading ends. */
    method Load(catalogue: seq<Exercise>)
      modifies this
      ensures exercises == catalogue && !loading
    {
      exercises := catalogue;
      loading := false;
    }

    /** `createCustomExercise(data)`: appends the exercise under the stamp as id and returns it. */
    method CreateCustomExercise(data: ExerciseData, stamp: string) returns (e: Exercise)
      modifies this
      ensures e == WithId(data, stamp)
      ensures exercises == old(exercises) + [e]
      ensures loading == old(loading)
    {
      e := WithId(data, stamp);
      exercises := exercises + [e];
    }
  }

  /** After creating an exercise under a fresh stamp, looking the stamp up finds it. */
  lemma CreatedIsFound(exercises: seq<Exercise>, data: ExerciseData, stamp: string)
    requires forall e :: e in exercises ==> e.id != stamp
    ensures GetExerciseById(exercises + [WithId(data, stamp)], stamp) == Some(WithId(data, stamp))
  {
    FindAppendHit(exercises, WithId(data, stamp), HasId(stamp));
  }

  /** Creating an exercise does not change what any other id finds. */
  lemma CreateKeepsOtherLookups(exercises: seq<Exercise>, data: ExerciseData, stamp: string, id: string)
    requires id != stamp
    ensures GetExerciseById(exercises + [WithId(data, stamp)], id) == GetExerciseById(exercises, id)
  {
    FindAppend(exercises, WithId(data, stamp), HasId(id));
  }

  lemma {:induction false} FindAppend<T>(s: seq<T>, x: T, p: T -> bool)
    requires !p(x)
    ensures Find(s + [x], p) == Find(s, p)
  {
    if s != [] {
      assert (s + [x])[1..] == s[1..] + [x];
      FindAppend(s[1..], x, p);
    }
  }

  lemma {:induction false} FindAppendHit<T>(s: seq<T>, x: T, p: T -> bool)
    requires p(x)
    requires forall y :: y in s ==> !p(y)
    ensures Find(s + [x], p) == Some(x)
  {
    if s == [] {
      assert s + [x] == [x];
    } else {
      assert (s + [x])[1..] == s[1..] + [x];
      FindAppendHit(s[1..], x, p);
    }
  }
}

=== FILE: messages.dfy ===
/**
 * The coach's messages page: the conversation search, the lookup of the
 * selected conversation, and the draft box with its send guard. Sending only
 * logs the draft; the log line is returned as the method's result.
 */
module Messaging {
  import opened Wrappers
  import opened Seqs
  import opened Text

  datatype Sender = Coach | AthleteSender

  datatype Message = Message(id: string, content: string, sender: Sender, timestamp: string, read: bool)

  datatype Conversation = Conversation(
    id: string,
    athleteName: string,
    athleteInitials: string,
    lastMessage: string,
    timestamp: string,
    unreadCount: int,
    messages: seq<Message>)

  function NameMatches(searchTerm: string): Conversation -> bool {
    (c: Conversation) => IncludesIgnoringCase(c.athleteName, searchTerm)
  }

  /** `filteredConversations`: the conversations whose athlete name contains the search, ignoring case. */
  function FilteredConversations(conversations: seq<Conversation>, searchTerm: string): (r: seq<Conversation>)
    ensures forall c :: c in r <==> c in conversations && IncludesIgnoringCase(c.athleteName, searchTerm)
    ensures forall c :: multiset(r)[c] ==
                        if IncludesIgnoringCase(c.athleteName, searchTerm) then multiset(conversations)[c] else 0
    ensures IsSubsequence(r, conversations)
  {
    FilterMultiset(conversations, NameMatches(searchTerm));
    Filter(conversations, NameMatches(searchTerm))
  }

  /** An empty search lists every conversation in order. */
  lemma EmptySearchListsAll(conversations: seq<Conversation>)
    ensures FilteredConversations(conversations, "") == conversations
  {
    forall i | 0 <= i < |conversations| ensures NameMatches("")(conversations[i]) {
      IncludesEmpty(conversations[i].athleteName);
    }
    FilterKeepsAll(conversations, NameMatches(""));
  }

  function HasId(id: string): Conversation -> bool {
    (c: Conversation) => c.id == id
  }

  /** `selectedConv`: the first conversation whose id is the selection; none while nothing is selected. */
  function SelectedConv(conversations: seq<Conversation>, selection: Option<string>): (r: Option<Conversation>)
    ensures selection.None? ==> r.None?
    ensures selection.Some? ==>
      (r.None? <==> forall c :: c in conversations ==> c.id != selection.value)
    ensures r.Some? ==> r.value in conversations && Some(r.value.id) == selection
    ensures r.Some? ==> forall i :: 0 <= i < |conversations| && Some(conversations[i].id) == selection ==>
      r.value in conversations[..i + 1]
  {
    match selection
    case None => None
    case Some(id) => Find(conversations, HasId(id))
  }

  /** `disabled={!newMessage.trim()}`: the send button is off for a blank draft. */
  predicate SendDisabled(draft: string) {
    IsBlank(draft)
  }

  /** The button is disabled exactly when the draft is nothing but white space. */
  lemma SendDisabledIffWhiteSpace(draft: string)
    ensures SendDisabled(draft) <==> forall i :: 0 <= i < |draft| ==> IsWhiteSpace(draft[i])
  {
    BlankIffAllWhiteSpace(draft);
  }

  /** The early return of `sendMessage`: a blank draft, or no (or an empty) selection. */
  predicate SendBlocked(draft: string, selection: Option<string>) {
    IsBlank(draft) || !Truthy(selection)
  }

  /** The guard of `sendMessage` is the button's guard plus the selection check. */
  lemma SendBlockedRefinesButton(draft: string, selection: Option<string>)
    ensures SendBlocked(draft, selection) <==> SendDisabled(draft) || selection.None? || selection == Some("")
  {
  }

  /** The page's state. The conversation list is fixed data the page never changes. */
  class MessagesPage {
    const conversations: seq<Conversation>
    var selectedConversation: Option<string>
    var newMessage: string
    var searchTerm: string

    constructor (conversations: seq<Conversation>)
      ensures this.conversations == conversations
      ensures selectedConversation == None && newMessage == "" && searchTerm == ""
    {
      this.conversations := conversations;
      selectedConversation := None;
      newMessage := "";
      searchTerm := "";
    }

    /** Clicking a conversation in the list selects it. */
    method SelectConversation(id: string)
      modifies this
      ensures selectedConversation == Some(id)
      ensures newMessage == old(newMessage) && searchTerm == old(searchTerm)
    {
      selectedConversation := Some(id);
    }

    /** Typing in the draft box. */
    method TypeDraft(text: string)
      modifies this
      ensures newMessage == text
      ensures selectedConversation == old(selectedConversation) && searchTerm == old(searchTerm)
    {
      newMessage := text;
    }

    /** Typing in the search box. */
    method TypeSearch(text: string)
      modifies this
      ensures searchTerm == text
      ensures selectedConversation == old(selectedConversation) && newMessage == old(newMessage)
    {
      searchTerm := text;
    }

    /**
     * `sendMessage()`: when the guard passes, the draft is logged (returned
     * as `sent`) and cleared; otherwise nothing happens. No conversation's
     * messages change either way.
     */
    method SendMessage() returns (sent: Option<string>)
      modifies this
      ensures SendBlocked(old(newMessage), old(selectedConversation)) ==>
        sent.None? && newMessage == old(newMessage)
      ensures !SendBlocked(old(newMessage), old(selectedConversation)) ==>
        sent == Some(old(newMessage)) && newMessage == ""
      ensures selectedConversation == old(selectedConversation) && searchTerm == old(searchTerm)
    {
      if IsBlank(newMessage) || !Truthy(selectedConversation) {
        return None;
      }
      sent := Some(newMessage);
      newMessage := "";
    }

    /** `handleKeyPress(e)`: Enter without Shift is intercepted and sends; any other key does nothing here. */
    method HandleKeyPress(key: string, shiftKey: bool) returns (prevented: bool, sent: Option<string>)
      modifies this
      ensures prevented <==> key == "Enter" && !shiftKey
      ensures prevented && !SendBlocked(old(newMessage), old(selectedConversation)) ==>
        sent == Some(old(newMessage)) && newMessage == ""
      ensures !prevented || SendBlocked(old(newMessage), old(selectedConversation)) ==>
        sent.None? && newMessage == old(newMessage)
      ensures selectedConversation == old(selectedConversation) && searchTerm == old(searchTerm)
    {
      prevented := key == "Enter" && !shiftKey;
      sent := None;
      if prevented {
        sent := SendMessage();
      }
    }
  }
}

=== FILE: roster.dfy ===
/**
 * The coach's athlete roster page: the search and status filter, the sort
 * selector, the status and completion badges, and the summary tiles.
 */
module Roster {
  import opened Seqs
  import opened Sorting
  import opened Text

  datatype AthleteStatus = Active | Inactive | Trial

  /** The string literal of each status, as the status selector compares it. */
  function StatusName(s: AthleteStatus): string {
    match s
    case Active => "active"
    case Inactive => "inactive"
    case Trial => "trial"
  }

  /**
   * An athlete as the roster uses it. `joinedDate` is an ISO `YYYY-MM-DD`
   * date; `lastActivity` is relative text such as "2 hours ago". The
   * statistics block is reduced to the completion rate the page reads.
   */
  datatype Athlete = Athlete(
    id: string,
    name: string,
    email: string,
    initials: string,
    joinedDate: string,
    status: AthleteStatus,
    completionRate: real,
    lastActivity: string,
    unreadMessages: nat)

  /** The callback of the roster's `filter`: the search hits the name or the email, and the status fits. */
  predicate MatchesAthlete(a: Athlete, searchTerm: string, statusFilter: string) {
    && (IncludesIgnoringCase(a.name, searchTerm) || IncludesIgnoringCase(a.email, searchTerm))
    && (statusFilter == "all" || StatusName(a.status) == statusFilter)
  }

  function Matching(searchTerm: string, statusFilter: string): Athlete -> bool {
    (a: Athlete) => MatchesAthlete(a, searchTerm, statusFilter)
  }

  /**
   * The comparator of the roster's `sort` for each `sortBy`. Names use the
   * string order; ISO dates compare as strings in the order their times do,
   * newest first; completion rates descend. A relative `lastActivity` parses
   * to an invalid date, the difference is NaN, and `sort` reads NaN as 0, so
   * that mode compares everything equal, as the default does.
   */
  function AthleteOrder(sortBy: string): (Athlete, Athlete) -> int {
    (a: Athlete, b: Athlete) =>
      if sortBy == "name" then Compare(a.name, b.name)
      else if sortBy == "joinedDate" then Compare(b.joinedDate, a.joinedDate)
      else if sortBy == "completionRate" then Sign(b.completionRate - a.completionRate)
      else 0
  }

  /**
   * The sign of a numeric comparator result: `sort` reads only whether the
   * result is negative, zero or positive.
   */
  function Sign(d: real): (r: int)
    ensures r < 0 <==> d < 0.0
    ensures r > 0 <==> d > 0.0
  {
    if d < 0.0 then -1 else if d > 0.0 then 1 else 0
  }

  /** Every sort mode is a consistent comparator. */
  lemma OrderConsistent(sortBy: string)
    ensures Consistent(AthleteOrder(sortBy))
  {
    var cmp := AthleteOrder(sortBy);
    forall a: Athlete, b: Athlete ensures cmp(a, b) < 0 <==> cmp(b, a) > 0 {
      CompareAntisymmetric(a.name, b.name);
      CompareAntisymmetric(b.joinedDate, a.joinedDate);
    }
    forall a: Athlete, b: Athlete, c: Athlete | cmp(a, b) <= 0 && cmp(b, c) <= 0
      ensures cmp(a, c) <= 0
    {
      if sortBy == "name" {
        CompareTransitive(a.name, b.name, c.name);
      } else if sortBy == "joinedDate" {
        CompareTransitive(c.joinedDate, b.joinedDate, a.joinedDate);
      } else if sortBy == "completionRate" {
        assert a.completionRate >= b.completionRate >= c.completionRate;
      }
    }
  }

  /** `filteredAthletes`: the matching athletes, ordered by the selected mode. */
  function FilteredAthletes(athletes: seq<Athlete>, searchTerm: string, statusFilter: string, sortBy: string)
    : (r: seq<Athlete>)
    ensures forall a :: a in r <==> a in athletes && MatchesAthlete(a, searchTerm, statusFilter)
    ensures SortedBy(r, AthleteOrder(sortBy))
  {
    var kept := Filter(athletes, Matching(searchTerm, statusFilter));
    SortedByMode(kept, sortBy);
    SortKeepsMembers(kept, AthleteOrder(sortBy));
    SortWith(kept, AthleteOrder(sortBy))
  }

  lemma SortedByMode(kept: seq<Athlete>, sortBy: string)
    ensures SortedBy(SortWith(kept, AthleteOrder(sortBy)), AthleteOrder(sortBy))
  {
    OrderConsistent(sortBy);
    SortSorted(kept, AthleteOrder(sortBy));
  }

  /** The result lists each matching athlete exactly as often as the roster does. */
  lemma FilteredAthletesPermutation(athletes: seq<Athlete>, searchTerm: string, statusFilter: string, sortBy: string, a: Athlete)
    ensures multiset(FilteredAthletes(athletes, searchTerm, statusFilter, sortBy))[a]
         == if MatchesAthlete(a, searchTerm, statusFilter) then multiset(athletes)[a] else 0
  {
    FilterMultiplicity(athletes, Matching(searchTerm, statusFilter), a);
  }

  /** No search and the status "all", the page's initial state, list every athlete, as often as the roster does. */
  lemma NeutralRosterKeepsAll(athletes: seq<Athlete>, sortBy: string)
    ensures multiset(FilteredAthletes(athletes, "", "all", sortBy)) == multiset(athletes)
  {
    var r := FilteredAthletes(athletes, "", "all", sortBy);
    forall a: Athlete ensures multiset(r)[a] == multiset(athletes)[a] {
      IncludesEmpty(a.name);
      FilteredAthletesPermutation(athletes, "", "all", sortBy, a);
    }
    assert multiset(r) == multiset(athletes);
  }

  /** Athletes the selected mode ranks equal keep their roster order. */
  lemma FilteredAthletesStable(athletes: seq<Athlete>, searchTerm: string, statusFilter: string, sortBy: string, a: Athlete)
    ensures Ties(FilteredAthletes(athletes, searchTerm, statusFilter, sortBy), AthleteOrder(sortBy), a)
         == Ties(Filter(athletes, Matching(searchTerm, statusFilter)), AthleteOrder(sortBy), a)
  {
    OrderConsistent(sortBy);
    SortStable(Filter(athletes, Matching(searchTerm, statusFilter)), AthleteOrder(sortBy), a);
  }

  /** "Last Activity" and any unknown mode leave the filtered roster in its original order. */
  lemma UnrankedModesKeepOrder(athletes: seq<Athlete>, searchTerm: string, statusFilter: string, sortBy: string)
    requires sortBy != "name" && sortBy != "joinedDate" && sortBy != "completionRate"
    ensures FilteredAthletes(athletes, searchTerm, statusFilter, sortBy)
         == Filter(athletes, Matching(searchTerm, statusFilter))
  {
    SortOfSorted(Filter(athletes, Matching(searchTerm, statusFilter)), AthleteOrder(sortBy));
  }

  /** With rates sorted, a higher completion rate never follows a lower one. */
  lemma CompletionRateDescends(athletes: seq<Athlete>, searchTerm: string, statusFilter: string, i: int, j: int)
    requires var r := FilteredAthletes(athletes, searchTerm, statusFilter, "completionRate");
             0 <= i < j < |r|
    ensures var r := FilteredAthletes(athletes, searchTerm, statusFilter, "completionRate");
            r[i].completionRate >= r[j].completionRate
  {
  }

  // ---------------------------------------------------------------------------
  // badges

  /** `getStatusColor(status)`. */
  function StatusColor(status: string): (c: string)
    ensures status == "active" ==> c == "bg-emerald-100 text-emerald-700"
    ensures status == "trial" ==> c == "bg-blue-100 text-blue-700"
    ensures status == "inactive" ==> c == "bg-red-100 text-red-700"
    ensures status !in {"active", "trial", "inactive"} ==> c == "bg-gray-100 text-gray-700"
  {
    if status == "active" then "bg-emerald-100 text-emerald-700"
    else if status == "trial" then "bg-blue-100 text-blue-700"
    else if status == "inactive" then "bg-red-100 text-red-700"
    else "bg-gray-100 text-gray-700"
  }

  /** Each status of an athlete gets its own badge, and none gets the fallback. */
  lemma StatusColorsDistinct(s: AthleteStatus, t: AthleteStatus)
    ensures StatusColor(StatusName(s)) == StatusColor(StatusName(t)) <==> s == t
    ensures StatusColor(StatusName(s)) != "bg-gray-100 text-gray-700"
  {
  }

  /** `getCompletionColor(rate)`. */
  function CompletionColor(rate: real): (c: string)
    ensures c == "text-emerald-600" <==> rate >= 90.0
    ensures c == "text-yellow-600" <==> 75.0 <= rate < 90.0
    ensures c == "text-red-600" <==> rate < 75.0
  {
    if rate >= 90.0 then "text-emerald-600"
    else if rate >= 75.0 then "text-yellow-600"
    else "text-red-600"
  }

  /** How good a completion colour is: red, then yellow, then emerald. */
  function ColorRank(c: string): int {
    if c == "text-emerald-600" then 2 else if c == "text-yellow-600" then 1 else 0
  }

  /** A higher rate never gets a worse colour. */
  lemma CompletionColorMonotone(a: real, b: real)
    requires a <= b
    ensures ColorRank(CompletionColor(a)) <= ColorRank(CompletionColor(b))
  {
  }

  // ---------------------------------------------------------------------------
  // summary tiles

  function IsActive(a: Athlete): bool {
    a.status == Active
  }

  /** The "Active" tile: `athletes.filter(a => a.status === 'active').length`. */
  function ActiveCount(athletes: seq<Athlete>): (n: nat)
    ensures n <= |athletes|
  {
    Count(athletes, IsActive)
  }

  /** The "Active" tile counts exactly what the roster shows under the "Active" status and no search. */
  lemma ActiveCountIsActiveListing(athletes: seq<Athlete>, sortBy: string)
    ensures ActiveCount(athletes) == |FilteredAthletes(athletes, "", "active", sortBy)|
  {
    var p := Matching("", "active");
    forall a: Athlete ensures p(a) == IsActive(a) {
      IncludesEmpty(a.name);
    }
    FilterSamePredicate(athletes, p, IsActive);
    var kept := Filter(athletes, p);
    assert |multiset(SortWith(kept, AthleteOrder(sortBy)))| == |multiset(kept)|;
  }

  /** The "Unread Messages" tile: the sum of every athlete's unread count. */
  function UnreadTotal(athletes: seq<Athlete>): nat {
    if athletes == [] then 0 else athletes[0].unreadMessages + UnreadTotal(athletes[1..])
  }

  /** The tile shows zero exactly when every athlete has read everything. */
  lemma {:induction false} UnreadZeroIffAllRead(athletes: seq<Athlete>)
    ensures UnreadTotal(athletes) == 0 <==> forall i :: 0 <= i < |athletes| ==> athletes[i].unreadMessages == 0
  {
    if athletes != [] {
      UnreadZeroIffAllRead(athletes[1..]);
      assert forall i :: 1 <= i < |athletes| ==> athletes[i] == athletes[1..][i - 1];
    }
  }

  /** The total of a roster split in two is the sum of the totals of its parts. */
  lemma {:induction false} UnreadTotalConcat(a: seq<Athlete>, b: seq<Athlete>)
    ensures UnreadTotal(a + b) == UnreadTotal(a) + UnreadTotal(b)
  {
    if a == [] {
      assert a + b == b;
    } else {
      assert (a + b)[1..] == a[1..] + b;
      UnreadTotalConcat(a[1..], b);
    }
  }
}

=== FILE: running.dfy ===
/**
 * The running workout builder: the state updaters the page hands to
 * `setRunningWorkout`. Each appends a node, merges a partial update into the
 * node whose id matches, or filters out the node with that id. Each
 * `Date.now().toString()` the page reads is a parameter of its own (`stamp`,
 * `workStamp`, `restStamp`), since successive reads of the clock need not agree.
 */
module RunningBuilder {
  import opened Wrappers
  import opened Seqs
  import opened Types

  // ---------------------------------------------------------------------------
  // partial updates: `{ ...node, ...updates }`

  /**
   * `Partial<RunningSegment>`. A required field is absent or given; an optional
   * field is absent, or given a value that may itself be `undefined` (the
   * numeric inputs pass `parseInt(...) || undefined`), which then overwrites.
   */
  datatype SegmentPatch = SegmentPatch(
    id: Option<string>,
    kind: Option<SegmentType>,
    name: Option<string>,
    duration: Option<Option<real>>,
    distance: Option<Option<real>>,
    pace: Option<Option<string>>,
    targetHeartRate: Option<Option<HeartRateTarget>>,
    intensityLevel: Option<Option<Intensity>>,
    notes: Option<Option<string>>,
    repetitions: Option<Option<int>>,
    intervals: Option<Option<seq<RunningInterval>>>)

  /** `Partial<RunningInterval>`, in the same way. */
  datatype IntervalPatch = IntervalPatch(
    id: Option<string>,
    name: Option<string>,
    duration: Option<Option<real>>,
    distance: Option<Option<real>>,
    pace: Option<Option<string>>,
    intensityLevel: Option<Option<Intensity>>,
    kind: Option<IntervalType>)

  function MergeSegment(s: RunningSegment, u: SegmentPatch): RunningSegment {
    RunningSegment(
      u.id.GetOr(s.id), u.kind.GetOr(s.kind), u.name.GetOr(s.name),
      u.duration.GetOr(s.duration), u.distance.GetOr(s.distance), u.pace.GetOr(s.pace),
      u.targetHeartRate.GetOr(s.targetHeartRate), u.intensityLevel.GetOr(s.intensityLevel),
      u.notes.GetOr(s.notes), u.repetitions.GetOr(s.repetitions), u.intervals.GetOr(s.intervals))
  }

  function MergeInterval(v: RunningInterval, u: IntervalPatch): RunningInterval {
    RunningInterval(
      u.id.GetOr(v.id), u.name.GetOr(v.name), u.duration.GetOr(v.duration),
      u.distance.GetOr(v.distance), u.pace.GetOr(v.pace),
      u.intensityLevel.GetOr(v.intensityLevel), u.kind.GetOr(v.kind))
  }

  /** Spreading the same update twice gives what spreading it once gives. */
  lemma MergeSegmentIdempotent(s: RunningSegment, u: SegmentPatch)
    ensures MergeSegment(MergeSegment(s, u), u) == MergeSegment(s, u)
  {
  }

  /** An update that names no field (`{}`) leaves the segment as it is. */
  lemma MergeSegmentEmpty(s: RunningSegment)
    ensures MergeSegment(s, SegmentPatch(None, None, None, None, None, None, None, None, None, None, None)) == s
  {
  }

  // ---------------------------------------------------------------------------
  // id tests

  function SegmentIs(id: string): RunningSegment -> bool {
    (s: RunningSegment) => s.id == id
  }

  function SegmentIsNot(id: string): RunningSegment -> bool {
    (s: RunningSegment) => s.id != id
  }

  function IntervalIs(id: string): RunningInterval -> bool {
    (v: RunningInterval) => v.id == id
  }

  function IntervalIsNot(id: string): RunningInterval -> bool {
    (v: RunningInterval) => v.id != id
  }

  // ---------------------------------------------------------------------------
  // segments

  /** The name a new segment of each type starts with. */
  function DefaultSegmentName(kind: SegmentType): string {
    match kind
    case Warmup => "Warm-up"
    case Cooldown => "Cool-down"
    case Interval => "Interval"
    case Recovery => "Recovery"
    case IntervalGroup => "Interval Block"
    case Main => "Main Run"
  }

  /**
   * The segment `addRunningSegment(kind)` builds. The segment id and the ids of
   * the two default intervals come from three separate reads of the clock.
   */
  function NewSegment(kind: SegmentType, stamp: string, workStamp: string, restStamp: string): (s: RunningSegment)
    ensures s.id == stamp && s.kind == kind && s.name == DefaultSegmentName(kind)
    ensures kind in {Warmup, Cooldown} ==> s.duration == Some(10.0) && s.intensityLevel == Some(1)
    ensures kind !in {Warmup, Cooldown} ==> s.duration == Some(30.0) && s.intensityLevel == Some(3)
    ensures s.repetitions.Some? <==> kind == IntervalGroup
    ensures s.intervals.Some? <==> kind == IntervalGroup
    ensures kind == IntervalGroup ==>
      && s.repetitions == Some(4)
      && s.intervals == Some([
           RunningInterval(workStamp + "_1", "Work", Some(3.0), None, None, Some(4), Work),
           RunningInterval(restStamp + "_2", "Rest", Some(1.0), None, None, Some(1), Rest)])
    ensures s.distance.None? && s.pace.None? && s.targetHeartRate.None? && s.notes.None?
  {
    var warmOrCool := kind == Warmup || kind == Cooldown;
    var group := kind == IntervalGroup;
    RunningSegment(
      stamp, kind, DefaultSegmentName(kind),
      Some(if warmOrCool then 10.0 else 30.0), None, None, None,
      Some(if warmOrCool then 1 else 3), None,
      if group then Some(4) else None,
      if group then
        Some([RunningInterval(workStamp + "_1", "Work", Some(3.0), None, None, Some(4), Work),
              RunningInterval(restStamp + "_2", "Rest", Some(1.0), None, None, Some(1), Rest)])
      else None)
  }

  /** `addRunningSegment(kind)`: appends one new segment; nothing else changes. */
  function AddRunningSegment(w: RunningWorkout, kind: SegmentType, stamp: string, workStamp: string, restStamp: string)
    : (r: RunningWorkout)
    ensures |r.segments| == |w.segments| + 1
    ensures r.segments[..|w.segments|] == w.segments
    ensures r.segments[|w.segments|] == NewSegment(kind, stamp, workStamp, restStamp)
    ensures r.(segments := w.segments) == w
  {
    w.(segments := w.segments + [NewSegment(kind, stamp, workStamp, restStamp)])
  }

  /** `updateSegment(id, updates)`: merges into every segment with the id, in place. */
  function UpdateSegment(w: RunningWorkout, id: string, u: SegmentPatch): (r: RunningWorkout)
    ensures |r.segments| == |w.segments|
    ensures forall i :: 0 <= i < |w.segments| ==>
      r.segments[i] == if w.segments[i].id == id then MergeSegment(w.segments[i], u) else w.segments[i]
    ensures r.(segments := w.segments) == w
  {
    w.(segments := MapWhere(w.segments, SegmentIs(id), s => MergeSegment(s, u)))
  }

  /**
   * `removeSegment(id)`: keeps the other segments in their order, every copy
   * of each, their intervals with them.
   */
  function RemoveSegment(w: RunningWorkout, id: string): (r: RunningWorkout)
    ensures forall s :: s in r.segments ==> s in w.segments && s.id != id
    ensures forall i :: 0 <= i < |w.segments| && w.segments[i].id != id ==> w.segments[i] in r.segments
    ensures forall s :: multiset(r.segments)[s] == if s.id != id then multiset(w.segments)[s] else 0
    ensures IsSubsequence(r.segments, w.segments)
    ensures r.(segments := w.segments) == w
  {
    FilterMultiset(w.segments, SegmentIsNot(id));
    w.(segments := Filter(w.segments, SegmentIsNot(id)))
  }

  // ---------------------------------------------------------------------------
  // intervals inside a segment

  /** The interval `addIntervalToGroup` builds: its id is the bare stamp. */
  function NewInterval(stamp: string): RunningInterval {
    RunningInterval(stamp, "Interval", Some(2.0), None, None, Some(3), Work)
  }

  /** `intervals: [...(segment.intervals || []), newInterval]`. */
  function AppendInterval(s: RunningSegment, stamp: string): RunningSegment {
    s.(intervals := Some(s.intervals.GetOr([]) + [NewInterval(stamp)]))
  }

  /** `intervals: segment.intervals?.map(...)`: an absent list stays absent. */
  function UpdateIntervalIn(s: RunningSegment, intervalId: string, u: IntervalPatch): RunningSegment {
    match s.intervals
    case None => s
    case Some(vs) => s.(intervals := Some(MapWhere(vs, IntervalIs(intervalId), v => MergeInterval(v, u))))
  }

  /** `intervals: segment.intervals?.filter(...)`: an absent list stays absent. */
  function RemoveIntervalIn(s: RunningSegment, intervalId: string): (r: RunningSegment)
    ensures s.intervals.Some? ==> r.intervals.Some?
    ensures s.intervals.Some? ==>
      forall v :: multiset(r.intervals.value)[v] == if v.id != intervalId then multiset(s.intervals.value)[v] else 0
  {
    match s.intervals
    case None => s
    case Some(vs) =>
      FilterMultiset(vs, IntervalIsNot(intervalId));
      s.(intervals := Some(Filter(vs, IntervalIsNot(intervalId))))
  }

  /**
   * `addIntervalToGroup(groupId)`: every segment with the id, whatever its type,
   * gets one more work interval at the end of its list (created if absent).
   */
  function AddIntervalToGroup(w: RunningWorkout, groupId: string, stamp: string): (r: RunningWorkout)
    ensures |r.segments| == |w.segments|
    ensures forall i :: 0 <= i < |w.segments| && w.segments[i].id != groupId ==> r.segments[i] == w.segments[i]
    ensures forall i :: 0 <= i < |w.segments| && w.segments[i].id == groupId ==>
      && r.segments[i].(intervals := w.segments[i].intervals) == w.segments[i]
      && r.segments[i].intervals == Some(w.segments[i].intervals.GetOr([]) + [NewInterval(stamp)])
    ensures r.(segments := w.segments) == w
  {
    w.(segments := MapWhere(w.segments, SegmentIs(groupId), s => AppendInterval(s, stamp)))
  }

  /** `updateInterval(groupId, intervalId, updates)`. */
  function UpdateInterval(w: RunningWorkout, groupId: string, intervalId: string, u: IntervalPatch): (r: RunningWorkout)
    ensures |r.segments| == |w.segments|
    ensures forall i :: 0 <= i < |w.segments| && (w.segments[i].id != groupId || w.segments[i].intervals.None?) ==>
      r.segments[i] == w.segments[i]
    ensures forall i :: 0 <= i < |w.segments| && w.segments[i].id == groupId && w.segments[i].intervals.Some? ==>
      var before := w.segments[i].intervals.value;
      && r.segments[i].(intervals := w.segments[i].intervals) == w.segments[i]
      && r.segments[i].intervals.Some?
      && |r.segments[i].intervals.value| == |before|
      && forall k :: 0 <= k < |before| ==>
           r.segments[i].intervals.value[k] ==
             if before[k].id == intervalId then MergeInterval(before[k], u) else before[k]
    ensures r.(segments := w.segments) == w
  {
    w.(segments := MapWhere(w.segments, SegmentIs(groupId), s => UpdateIntervalIn(s, intervalId, u)))
  }

  /** `removeInterval(groupId, intervalId)`. */
  function RemoveInterval(w: RunningWorkout, groupId: string, intervalId: string): (r: RunningWorkout)
    ensures |r.segments| == |w.segments|
    ensures forall i :: 0 <= i < |w.segments| && (w.segments[i].id != groupId || w.segments[i].intervals.None?) ==>
      r.segments[i] == w.segments[i]
    ensures forall i :: 0 <= i < |w.segments| && w.segments[i].id == groupId && w.segments[i].intervals.Some? ==>
      var before := w.segments[i].intervals.value;
      && r.segments[i].(intervals := w.segments[i].intervals) == w.segments[i]
      && r.segments[i].intervals.Some?
      && IsSubsequence(r.segments[i].intervals.value, before)
      && (forall v :: v in r.segments[i].intervals.value ==> v.id != intervalId)
      && (forall k :: 0 <= k < |before| && before[k].id != intervalId ==> before[k] in r.segments[i].intervals.value)
      && (forall v :: multiset(r.segments[i].intervals.value)[v] ==
            if v.id != intervalId then multiset(before)[v] else 0)
    ensures r.(segments := w.segments) == w
  {
    w.(segments := MapWhere(w.segments, SegmentIs(groupId), s => RemoveIntervalIn(s, intervalId)))
  }

  // ---------------------------------------------------------------------------
  // properties relating several operations

  /** Updating an id that no segment carries is a no-op. */
  lemma UpdateSegmentMissing(w: RunningWorkout, id: string, u: SegmentPatch)
    requires forall s :: s in w.segments ==> s.id != id
    ensures UpdateSegment(w, id, u) == w
  {
    assert UpdateSegment(w, id, u).segments == w.segments;
  }

  /** Applying the same update twice is applying it once, unless the update moves the id. */
  lemma UpdateSegmentIdempotent(w: RunningWorkout, id: string, u: SegmentPatch)
    requires u.id.None? || u.id == Some(id)
    ensures UpdateSegment(UpdateSegment(w, id, u), id, u) == UpdateSegment(w, id, u)
  {
    var once := UpdateSegment(w, id, u);
    var twice := UpdateSegment(once, id, u);
    forall i | 0 <= i < |w.segments| ensures twice.segments[i] == once.segments[i] {
      if w.segments[i].id == id {
        MergeSegmentIdempotent(w.segments[i], u);
      }
    }
    assert twice.segments == once.segments;
  }

  /** Updating an interval id that the group does not hold is a no-op. */
  lemma UpdateIntervalMissing(w: RunningWorkout, groupId: string, intervalId: string, u: IntervalPatch)
    requires forall s :: s in w.segments && s.id == groupId && s.intervals.Some? ==>
      forall v :: v in s.intervals.value ==> v.id != intervalId
    ensures UpdateInterval(w, groupId, intervalId, u) == w
  {
    var r := UpdateInterval(w, groupId, intervalId, u);
    forall i | 0 <= i < |w.segments| ensures r.segments[i] == w.segments[i] {
      var s := w.segments[i];
      if s.id == groupId && s.intervals.Some? {
        MapWhereNoMatch(s.intervals.value, IntervalIs(intervalId), (v: RunningInterval) => MergeInterval(v, u));
        assert r.segments[i].intervals.value == s.intervals.value;
      }
    }
    assert r.segments == w.segments;
  }

  /** Removing an id that no segment carries is a no-op. */
  lemma RemoveSegmentMissing(w: RunningWorkout, id: string)
    requires forall s :: s in w.segments ==> s.id != id
    ensures RemoveSegment(w, id) == w
  {
    FilterKeepsAll(w.segments, SegmentIsNot(id));
  }

  /** Removing the segment just added, under a fresh stamp, restores the workout exactly. */
  lemma AddThenRemoveSegment(w: RunningWorkout, kind: SegmentType, stamp: string, workStamp: string, restStamp: string)
    requires forall s :: s in w.segments ==> s.id != stamp
    ensures RemoveSegment(AddRunningSegment(w, kind, stamp, workStamp, restStamp), stamp) == w
  {
    var p := SegmentIsNot(stamp);
    var added := NewSegment(kind, stamp, workStamp, restStamp);
    FilterConcat(w.segments, [added], p);
    FilterKeepsAll(w.segments, p);
    assert Filter([added], p) == [];
  }

  /** Filtering out the interval just appended gives back the list it was appended to. */
  lemma AppendThenRemoveIn(s: RunningSegment, stamp: string)
    requires s.intervals.Some? ==> forall v :: v in s.intervals.value ==> v.id != stamp
    ensures RemoveIntervalIn(AppendInterval(s, stamp), stamp) == s.(intervals := Some(s.intervals.GetOr([])))
  {
    var vs := s.intervals.GetOr([]);
    var p := IntervalIsNot(stamp);
    var appended := AppendInterval(s, stamp);
    assert appended.intervals == Some(vs + [NewInterval(stamp)]);
    FilterConcat(vs, [NewInterval(stamp)], p);
    FilterKeepsAll(vs, p);
    assert Filter([NewInterval(stamp)], p) == [];
    assert Filter(vs + [NewInterval(stamp)], p) == vs;
    assert RemoveIntervalIn(appended, stamp) == appended.(intervals := Some(vs));
  }

  /**
   * Removing the interval just added under a fresh stamp restores each group;
   * a segment that had no interval list is left with an empty one.
   */
  lemma AddThenRemoveInterval(w: RunningWorkout, groupId: string, stamp: string)
    requires forall s :: s in w.segments && s.id == groupId && s.intervals.Some? ==>
      forall v :: v in s.intervals.value ==> v.id != stamp
    ensures var r := RemoveInterval(AddIntervalToGroup(w, groupId, stamp), groupId, stamp);
      && r.(segments := w.segments) == w
      && |r.segments| == |w.segments|
      && forall i :: 0 <= i < |w.segments| ==>
           r.segments[i] ==
             if w.segments[i].id == groupId && w.segments[i].intervals.None?
             then w.segments[i].(intervals := Some([]))
             else w.segments[i]
  {
    var added := AddIntervalToGroup(w, groupId, stamp);
    var r := RemoveInterval(added, groupId, stamp);
    forall i | 0 <= i < |w.segments| && w.segments[i].id == groupId
      ensures r.segments[i] ==
        if w.segments[i].intervals.None? then w.segments[i].(intervals := Some([])) else w.segments[i]
    {
      assert added.segments[i] == AppendInterval(w.segments[i], stamp);
      assert r.segments[i] == RemoveIntervalIn(added.segments[i], stamp);
      AppendThenRemoveIn(w.segments[i], stamp);
    }
  }

  /** Every interval reachable from a list of segments, group by group. */
  function ReachableIntervals(segs: seq<RunningSegment>): seq<RunningInterval> {
    if segs == [] then [] else segs[0].intervals.GetOr([]) + ReachableIntervals(segs[1..])
  }

  lemma {:induction false} ReachableSplit(segs: seq<RunningSegment>, id: string)
    ensures multiset(ReachableIntervals(Filter(segs, SegmentIsNot(id))))
          + multiset(ReachableIntervals(Filter(segs, SegmentIs(id))))
         == multiset(ReachableIntervals(segs))
  {
    if segs != [] {
      ReachableSplit(segs[1..], id);
      FilterCons(segs[0], segs[1..], SegmentIsNot(id));
      FilterCons(segs[0], segs[1..], SegmentIs(id));
      assert segs == [segs[0]] + segs[1..];
      var kept := Filter(segs[1..], SegmentIsNot(id));
      var gone := Filter(segs[1..], SegmentIs(id));
      if segs[0].id == id {
        assert ReachableIntervals([segs[0]] + gone) == segs[0].intervals.GetOr([]) + ReachableIntervals(gone);
      } else {
        assert ReachableIntervals([segs[0]] + kept) == segs[0].intervals.GetOr([]) + ReachableIntervals(kept);
      }
    }
  }

  /**
   * Removing a segment takes exactly its own intervals with it: what remains
   * reachable plus the intervals of the segments with that id is what was
   * reachable before.
   */
  lemma RemoveSegmentCascades(w: RunningWorkout, id: string)
    ensures multiset(ReachableIntervals(RemoveSegment(w, id).segments))
          + multiset(ReachableIntervals(Filter(w.segments, SegmentIs(id))))
         == multiset(ReachableIntervals(w.segments))
  {
    ReachableSplit(w.segments, id);
  }

  /**
   * An interval block added to an empty workout has the Work and Rest defaults;
   * one more interval makes three, of types work, rest, work; removing the
   * block leaves no segment and no interval.
   */
  lemma IntervalBlockScenario(w: RunningWorkout, stamp: string, workStamp: string, restStamp: string, stamp2: string)
    requires w.segments == []
    ensures
      var w1 := AddRunningSegment(w, IntervalGroup, stamp, workStamp, restStamp);
      var w2 := AddIntervalToGroup(w1, stamp, stamp2);
      var w3 := RemoveSegment(w2, stamp);
      && |w1.segments| == 1 && w1.segments[0].repetitions == Some(4)
      && |w2.segments| == 1 && w2.segments[0].intervals.Some?
      && |w2.segments[0].intervals.value| == 3
      && w2.segments[0].intervals.value[0].kind == Work
      && w2.segments[0].intervals.value[1].kind == Rest
      && w2.segments[0].intervals.value[2].kind == Work
      && w3.segments == [] && ReachableIntervals(w3.segments) == []
  {
    var w1 := AddRunningSegment(w, IntervalGroup, stamp, workStamp, restStamp);
    var w2 := AddIntervalToGroup(w1, stamp, stamp2);
    assert w2.segments[0].id == stamp;
    assert Filter(w2.segments, SegmentIsNot(stamp)) == [];
  }
}

=== FILE: seqs.dfy ===
/**
 * The array primitives every page is written with: `filter`, `find`, the
 * `filter(...).length` counts and the `new Set(...)` de-duplication.
 */
module Seqs {
  import opened Wrappers

  /** `a` is `b` with some elements left out: nothing added, duplicated or reordered. */
  predicate IsSubsequence<T(==)>(a: seq<T>, b: seq<T>)
    decreases |b|
  {
    if a == [] then true
    else if b == [] then false
    else if a[0] == b[0] then IsSubsequence(a[1..], b[1..])
    else IsSubsequence(a, b[1..])
  }

  /** `s.filter(p)`. */
  function Filter<T(==)>(s: seq<T>, p: T -> bool): (r: seq<T>)
    ensures |r| <= |s|
    ensures forall x :: x in r ==> x in s && p(x)
    ensures forall i :: 0 <= i < |s| && p(s[i]) ==> s[i] in r
    ensures IsSubsequence(r, s)
  {
    if s == [] then []
    else
      var rest := Filter(s[1..], p);
      assert s == [s[0]] + s[1..];
      if p(s[0]) then
        assert ([s[0]] + rest)[1..] == rest;
        [s[0]] + rest
      else
        assert rest != [] ==> rest[0] != s[0];
        rest
  }

  /** Each kept value keeps its multiplicity; every other value disappears. */
  lemma {:induction false} FilterMultiplicity<T>(s: seq<T>, p: T -> bool, x: T)
    ensures multiset(Filter(s, p))[x] == if p(x) then multiset(s)[x] else 0
  {
    if s != [] {
      FilterMultiplicity(s[1..], p, x);
      assert s == [s[0]] + s[1..];
    }
  }

  /** The multiplicity law of `filter`, for every value at once. */
  lemma FilterMultiset<T>(s: seq<T>, p: T -> bool)
    ensures forall x :: multiset(Filter(s, p))[x] == if p(x) then multiset(s)[x] else 0
  {
    forall x ensures multiset(Filter(s, p))[x] == if p(x) then multiset(s)[x] else 0 {
      FilterMultiplicity(s, p, x);
    }
  }

  lemma FilterCons<T>(y: T, s: seq<T>, p: T -> bool)
    ensures Filter([y] + s, p) == (if p(y) then [y] else []) + Filter(s, p)
  {
    assert ([y] + s)[1..] == s;
  }

  lemma {:induction false} FilterConcat<T>(a: seq<T>, b: seq<T>, p: T -> bool)
    ensures Filter(a + b, p) == Filter(a, p) + Filter(b, p)
  {
    if a != [] {
      var ab := a + b;
      assert ab[0] == a[0] && ab[1..] == a[1..] + b;
      FilterConcat(a[1..], b, p);
      if p(a[0]) {
        assert Filter(ab, p) == [a[0]] + Filter(a[1..] + b, p);
        assert Filter(a, p) == [a[0]] + Filter(a[1..], p);
      } else {
        assert Filter(ab, p) == Filter(a[1..] + b, p);
        assert Filter(a, p) == Filter(a[1..], p);
      }
    } else {
      assert a + b == b;
    }
  }

  /** Two filters in a row are one filter by the conjunction. */
  lemma {:induction false} FilterFilter<T>(s: seq<T>, p: T -> bool, q: T -> bool, pq: T -> bool)
    requires forall x :: pq(x) == (p(x) && q(x))
    ensures Filter(Filter(s, p), q) == Filter(s, pq)
  {
    if s != [] {
      FilterFilter(s[1..], p, q, pq);
      FilterCons(s[0], s[1..], p);
      FilterCons(s[0], s[1..], pq);
      assert s == [s[0]] + s[1..];
      if p(s[0]) {
        FilterCons(s[0], Filter(s[1..], p), q);
      }
    }
  }

  /** Filters by pointwise-equal predicates agree. */
  lemma {:induction false} FilterSamePredicate<T>(s: seq<T>, p: T -> bool, q: T -> bool)
    requires forall x :: p(x) == q(x)
    ensures Filter(s, p) == Filter(s, q)
  {
    if s != [] {
      FilterSamePredicate(s[1..], p, q);
    }
  }

  /** A filter whose predicate holds everywhere keeps the whole sequence. */
  lemma {:induction false} FilterKeepsAll<T>(s: seq<T>, p: T -> bool)
    requires forall i :: 0 <= i < |s| ==> p(s[i])
    ensures Filter(s, p) == s
  {
    if s != [] {
      FilterKeepsAll(s[1..], p);
    }
  }

  /** `s.map(x => p(x) ? f(x) : x)`: the id-keyed update every builder operation performs. */
  function MapWhere<T>(s: seq<T>, p: T -> bool, f: T -> T): (r: seq<T>)
    ensures |r| == |s|
    ensures forall i :: 0 <= i < |s| ==> r[i] == if p(s[i]) then f(s[i]) else s[i]
  {
    if s == [] then []
    else [if p(s[0]) then f(s[0]) else s[0]] + MapWhere(s[1..], p, f)
  }

  /** An update that matches nothing returns the sequence unchanged. */
  lemma MapWhereNoMatch<T>(s: seq<T>, p: T -> bool, f: T -> T)
    requires forall i :: 0 <= i < |s| ==> !p(s[i])
    ensures MapWhere(s, p, f) == s
  {
  }

  /** `s.filter(p).length`. */
  function Count<T(==)>(s: seq<T>, p: T -> bool): (n: nat)
    ensures n <= |s|
  {
    |Filter(s, p)|
  }

  /** `s.find(p)`: the first element satisfying `p`, if any. */
  function Find<T(==)>(s: seq<T>, p: T -> bool): (r: Option<T>)
    ensures r.None? <==> forall i :: 0 <= i < |s| ==> !p(s[i])
    ensures r.Some? ==> r.value in s && p(r.value)
    ensures r.Some? ==> forall i :: 0 <= i < |s| && p(s[i]) ==> r.value in s[..i + 1]
  {
    if s == [] then None
    else if p(s[0]) then Some(s[0])
    else
      var r := Find(s[1..], p);
      assert forall i :: 1 <= i <= |s| ==> s[..i] == [s[0]] + s[1..][..i - 1];
      r
  }

  predicate NoDuplicates<T(==)>(s: seq<T>) {
    forall i, j :: 0 <= i < j < |s| ==> s[i] != s[j]
  }

  /** `[...new Set(s)]`: every value of `s`, each once, and nothing else. */
  function Dedup<T(==)>(s: seq<T>): (r: seq<T>)
    ensures forall x :: x in r ==> x in s
    ensures forall i :: 0 <= i < |s| ==> s[i] in r
    ensures NoDuplicates(r)
  {
    if s == [] then []
    else
      var r := Dedup(s[..|s| - 1]);
      assert s == s[..|s| - 1] + [s[|s| - 1]];
      if s[|s| - 1] in r then r else r + [s[|s| - 1]]
  }

  /** A sequence has no duplicates exactly when no element occurs twice in its multiset. */
  lemma {:induction false} NoDuplicatesMultiset<T>(s: seq<T>)
    ensures NoDuplicates(s) <==> forall x :: multiset(s)[x] <= 1
  {
    if s != [] {
      NoDuplicatesMultiset(s[1..]);
      assert s == [s[0]] + s[1..];
      if NoDuplicates(s) {
        assert s[0] !in s[1..];
        assert NoDuplicates(s[1..]);
      } else {
        var i, j :| 0 <= i < j < |s| && s[i] == s[j];
        if i == 0 {
          assert s[j] in s[1..];
          assert multiset(s)[s[0]] >= 2;
        } else {
          assert s[1..][i - 1] == s[1..][j - 1];
          assert !NoDuplicates(s[1..]);
          var x :| multiset(s[1..])[x] > 1;
          assert multiset(s)[x] > 1;
        }
      }
    }
  }
}

=== FILE: sorting.dfy ===
/**
 * `Array.prototype.sort(comparator)`. The language requires the sort to be
 * stable; for a consistent comparator a stable sort has exactly one possible
 * result, and insertion sort computes it.
 */
module Sorting {
  import opened Seqs
  import Text

  /**
   * A comparator that behaves like one: the sign flips when the arguments are
   * swapped, and "not after" is transitive.
   */
  ghost predicate Consistent<T(!new)>(cmp: (T, T) -> int) {
    && (forall a, b :: cmp(a, b) < 0 <==> cmp(b, a) > 0)
    && (forall a, b, c :: cmp(a, b) <= 0 && cmp(b, c) <= 0 ==> cmp(a, c) <= 0)
  }

  /** Every element of `s` may stand after `y`. */
  ghost predicate NotBefore<T>(y: T, s: seq<T>, cmp: (T, T) -> int) {
    forall k :: 0 <= k < |s| ==> cmp(y, s[k]) <= 0
  }

  ghost predicate SortedBy<T>(s: seq<T>, cmp: (T, T) -> int) {
    forall i, j :: 0 <= i < j < |s| ==> cmp(s[i], s[j]) <= 0
  }

  /** Puts `x` in front of the first element of `t` that it does not have to follow. */
  function Insert<T(==)>(x: T, t: seq<T>, cmp: (T, T) -> int): (r: seq<T>)
    ensures multiset(r) == multiset(t) + multiset{x}
  {
    if t == [] then [x]
    else if cmp(x, t[0]) > 0 then
      assert t == [t[0]] + t[1..];
      [t[0]] + Insert(x, t[1..], cmp)
    else [x] + t
  }

  /** `s.slice().sort(cmp)`. */
  function SortWith<T(==)>(s: seq<T>, cmp: (T, T) -> int): (r: seq<T>)
    ensures multiset(r) == multiset(s)
  {
    if s == [] then []
    else
      assert s == [s[0]] + s[1..];
      Insert(s[0], SortWith(s[1..], cmp), cmp)
  }

  /** The sort keeps exactly the elements it was given. */
  lemma SortKeepsMembers<T>(s: seq<T>, cmp: (T, T) -> int)
    ensures forall x :: x in SortWith(s, cmp) <==> x in s
  {
    assert forall x :: x in SortWith(s, cmp) <==> x in multiset(SortWith(s, cmp));
  }

  lemma {:induction false} InsertNotBefore<T(!new)>(y: T, x: T, t: seq<T>, cmp: (T, T) -> int)
    requires cmp(y, x) <= 0 && NotBefore(y, t, cmp)
    ensures NotBefore(y, Insert(x, t, cmp), cmp)
  {
    if t != [] && cmp(x, t[0]) > 0 {
      InsertNotBefore(y, x, t[1..], cmp);
    }
  }

  /** Prepending an element that may precede all the others keeps a sequence sorted. */
  lemma ConsSorted<T>(y: T, s: seq<T>, cmp: (T, T) -> int)
    requires NotBefore(y, s, cmp) && SortedBy(s, cmp)
    ensures SortedBy([y] + s, cmp)
  {
    var r := [y] + s;
    forall i, j | 0 <= i < j < |r| ensures cmp(r[i], r[j]) <= 0 {
      if i == 0 {
        assert r[j] == s[j - 1];
      } else {
        assert r[i] == s[i - 1] && r[j] == s[j - 1];
      }
    }
  }

  lemma {:induction false} InsertSorted<T(!new)>(x: T, t: seq<T>, cmp: (T, T) -> int)
    requires Consistent(cmp) && SortedBy(t, cmp)
    ensures SortedBy(Insert(x, t, cmp), cmp)
  {
    if t != [] {
      assert forall k :: 0 <= k < |t| - 1 ==> cmp(t[0], t[1..][k]) <= 0 by {
        forall k | 0 <= k < |t| - 1 ensures cmp(t[0], t[1..][k]) <= 0 {
          assert t[1..][k] == t[k + 1];
        }
      }
      assert SortedBy(t[1..], cmp);
      if cmp(x, t[0]) > 0 {
        InsertSorted(x, t[1..], cmp);
        assert cmp(t[0], x) < 0;
        InsertNotBefore(t[0], x, t[1..], cmp);
        ConsSorted(t[0], Insert(x, t[1..], cmp), cmp);
      } else {
        forall k | 0 <= k < |t| ensures cmp(x, t[k]) <= 0 {
          assert cmp(t[0], t[k]) <= 0;
        }
        ConsSorted(x, t, cmp);
      }
    }
  }

  /** The result of the sort is ordered by the comparator. */
  lemma {:induction false} SortSorted<T(!new)>(s: seq<T>, cmp: (T, T) -> int)
    requires Consistent(cmp)
    ensures SortedBy(SortWith(s, cmp), cmp)
  {
    if s != [] {
      SortSorted(s[1..], cmp);
      InsertSorted(s[0], SortWith(s[1..], cmp), cmp);
    }
  }

  /** A sequence already in order is returned unchanged. */
  lemma {:induction false} SortOfSorted<T>(s: seq<T>, cmp: (T, T) -> int)
    requires SortedBy(s, cmp)
    ensures SortWith(s, cmp) == s
  {
    if s != [] {
      SortOfSorted(s[1..], cmp);
      assert s == [s[0]] + s[1..];
      if |s| > 1 {
        assert cmp(s[0], s[1]) <= 0;
      }
    }
  }

  // ---------------------------------------------------------------------------
  // stability

  /** The predicate "compares equal to `x`". */
  function TiedWith<T>(cmp: (T, T) -> int, x: T): T -> bool {
    y => cmp(x, y) == 0
  }

  /** The elements of `s` that compare equal to `x`, in their order in `s`. */
  function Ties<T(==)>(s: seq<T>, cmp: (T, T) -> int, x: T): seq<T> {
    Filter(s, TiedWith(cmp, x))
  }

  lemma {:induction false} InsertTies<T(!new)>(y: T, t: seq<T>, cmp: (T, T) -> int, x: T)
    requires Consistent(cmp)
    ensures Ties(Insert(y, t, cmp), cmp, x) == Ties([y] + t, cmp, x)
  {
    var p := TiedWith(cmp, x);
    if t != [] && cmp(y, t[0]) > 0 {
      InsertTies(y, t[1..], cmp, x);
      assert t == [t[0]] + t[1..];
      FilterCons(t[0], Insert(y, t[1..], cmp), p);
      FilterCons(y, t[1..], p);
      FilterCons(y, t, p);
      FilterCons(t[0], t[1..], p);
      assert !(p(y) && p(t[0]));
    }
  }

  /** Elements that compare equal keep their relative order. */
  lemma {:induction false} SortStable<T(!new)>(s: seq<T>, cmp: (T, T) -> int, x: T)
    requires Consistent(cmp)
    ensures Ties(SortWith(s, cmp), cmp, x) == Ties(s, cmp, x)
  {
    if s != [] {
      var p := TiedWith(cmp, x);
      var sorted := SortWith(s[1..], cmp);
      SortStable(s[1..], cmp, x);
      InsertTies(s[0], sorted, cmp, x);
      FilterConcat([s[0]], sorted, p);
      FilterConcat([s[0]], s[1..], p);
      assert s == [s[0]] + s[1..];
    }
  }

  // ---------------------------------------------------------------------------
  // the string order

  /** Code-point order on strings is a consistent comparator. */
  lemma StringCompareConsistent()
    ensures Consistent(Text.Compare)
  {
    forall a: string, b: string ensures Text.Compare(a, b) < 0 <==> Text.Compare(b, a) > 0 {
      Text.CompareAntisymmetric(a, b);
    }
    forall a: string, b: string, c: string | Text.Compare(a, b) <= 0 && Text.Compare(b, c) <= 0
      ensures Text.Compare(a, c) <= 0
    {
      Text.CompareTransitive(a, b, c);
    }
  }

  /** Strings in ascending code-point order, no two equal. */
  predicate StrictlyAscending(s: seq<string>) {
    forall i, j :: 0 <= i < j < |s| ==> Text.Compare(s[i], s[j]) < 0
  }

  /** Sorting a sequence of distinct strings orders it strictly. */
  lemma SortDistinctStrings(d: seq<string>)
    requires NoDuplicates(d)
    ensures StrictlyAscending(SortWith(d, Text.Compare))
  {
    var r := SortWith(d, Text.Compare);
    StringCompareConsistent();
    SortSorted(d, Text.Compare);
    NoDuplicatesMultiset(d);
    NoDuplicatesMultiset(r);
    forall i, j | 0 <= i < j < |r| ensures Text.Compare(r[i], r[j]) < 0 {
      Text.CompareZeroIffEqual(r[i], r[j]);
    }
  }

  /** `[...new Set(s)].sort()`: the distinct strings of `s`, in ascending order. */
  function SortedUnique(s: seq<string>): (r: seq<string>)
    ensures StrictlyAscending(r)
    ensures forall x :: x in r <==> x in s
  {
    var d := Dedup(s);
    SortDistinctStrings(d);
    var r := SortWith(d, Text.Compare);
    assert forall x :: x in r <==> x in multiset(d);
    r
  }
}

=== FILE: strength.dfy ===
/**
 * The strength workout builder: the state updaters handed to
 * `setStrengthWorkout`, and the muscle-group tally of the sidebar. In the page
 * these helpers are declared inside the running branch, so the strength
 * branch that refers to them cannot reach them; their bodies are modelled as
 * written. Each `Date.now().toString()` read is a parameter of its own
 * (`stamp`, `setStamp`), since successive reads of the clock need not agree.
 */
module StrengthBuilder {
  import opened Wrappers
  import opened Seqs
  import opened Text
  import opened Types

  /** `Partial<ExerciseSet>`: given optional fields overwrite, `undefined` included. */
  datatype SetPatch = SetPatch(
    id: Option<string>,
    reps: Option<Option<int>>,
    weight: Option<Option<real>>,
    restPeriod: Option<Option<real>>,
    completed: Option<Option<bool>>,
    notes: Option<Option<string>>)

  function MergeSet(s: ExerciseSet, u: SetPatch): ExerciseSet {
    ExerciseSet(
      u.id.GetOr(s.id), u.reps.GetOr(s.reps), u.weight.GetOr(s.weight),
      u.restPeriod.GetOr(s.restPeriod), u.completed.GetOr(s.completed), u.notes.GetOr(s.notes))
  }

  function ExerciseIs(id: string): StrengthExercise -> bool {
    (e: StrengthExercise) => e.id == id
  }

  function ExerciseIsNot(id: string): StrengthExercise -> bool {
    (e: StrengthExercise) => e.id != id
  }

  function SetIs(id: string): ExerciseSet -> bool {
    (s: ExerciseSet) => s.id == id
  }

  function SetIsNot(id: string): ExerciseSet -> bool {
    (s: ExerciseSet) => s.id != id
  }

  /** A new set: 10 reps, no weight, 2 minutes of rest. */
  function DefaultSet(id: string): ExerciseSet {
    ExerciseSet(id, Some(10), Some(0.0), Some(2.0), None, None)
  }

  /**
   * The exercise `addExerciseToWorkout(exercise)` builds from a catalogue
   * entry; the exercise id and the id of its first set come from two reads of
   * the clock.
   */
  function NewStrengthExercise(ex: Exercise, stamp: string, setStamp: string): (e: StrengthExercise)
    ensures e.id == stamp && e.name == ex.name
    ensures e.muscleGroup ==
      if |ex.muscleGroups| > 0 && ex.muscleGroups[0] != "" then ex.muscleGroups[0] else "General"
    ensures Truthy(ex.instructions) ==> e.description == ex.instructions.value
    ensures !Truthy(ex.instructions) && Truthy(ex.description) ==> e.description == ex.description.value
    ensures !Truthy(ex.instructions) && !Truthy(ex.description) ==> e.description == "No description available"
    ensures e.sets == [DefaultSet(setStamp + "_set1")]
  {
    var first := if |ex.muscleGroups| > 0 then ex.muscleGroups[0] else "";
    StrengthExercise(
      stamp,
      ex.name,
      if first != "" then first else "General",
      if Truthy(ex.instructions) then ex.instructions.value
      else if Truthy(ex.description) then ex.description.value
      else "No description available",
      [DefaultSet(setStamp + "_set1")])
  }

  /** `addExerciseToWorkout(exercise)`: appends one exercise; nothing else changes. */
  function AddExerciseToWorkout(w: StrengthWorkout, ex: Exercise, stamp: string, setStamp: string): (r: StrengthWorkout)
    ensures |r.exercises| == |w.exercises| + 1
    ensures r.exercises[..|w.exercises|] == w.exercises
    ensures r.exercises[|w.exercises|] == NewStrengthExercise(ex, stamp, setStamp)
    ensures r.(exercises := w.exercises) == w
  {
    w.(exercises := w.exercises + [NewStrengthExercise(ex, stamp, setStamp)])
  }

  /**
   * `removeExerciseFromWorkout(id)`: the other exercises stay in order, every
   * copy of each; the sets go with theirs.
   */
  function RemoveExerciseFromWorkout(w: StrengthWorkout, id: string): (r: StrengthWorkout)
    ensures forall e :: e in r.exercises ==> e in w.exercises && e.id != id
    ensures forall i :: 0 <= i < |w.exercises| && w.exercises[i].id != id ==> w.exercises[i] in r.exercises
    ensures forall e :: multiset(r.exercises)[e] == if e.id != id then multiset(w.exercises)[e] else 0
    ensures IsSubsequence(r.exercises, w.exercises)
    ensures r.(exercises := w.exercises) == w
  {
    FilterMultiset(w.exercises, ExerciseIsNot(id));
    w.(exercises := Filter(w.exercises, ExerciseIsNot(id)))
  }

  /** `addSetToExercise(id)`: every exercise with the id gets one default set at the end. */
  function AddSetToExercise(w: StrengthWorkout, exerciseId: string, stamp: string): (r: StrengthWorkout)
    ensures |r.exercises| == |w.exercises|
    ensures forall i :: 0 <= i < |w.exercises| ==>
      r.exercises[i] ==
        if w.exercises[i].id == exerciseId
        then w.exercises[i].(sets := w.exercises[i].sets + [DefaultSet(stamp)])
        else w.exercises[i]
    ensures r.(exercises := w.exercises) == w
  {
    w.(exercises := MapWhere(w.exercises, ExerciseIs(exerciseId),
                             (e: StrengthExercise) => e.(sets := e.sets + [DefaultSet(stamp)])))
  }

  /** `sets: exercise.sets.filter(set => set.id !== setId)`. */
  function RemoveSetIn(e: StrengthExercise, setId: string): (r: StrengthExercise)
    ensures forall x :: multiset(r.sets)[x] == if x.id != setId then multiset(e.sets)[x] else 0
  {
    FilterMultiset(e.sets, SetIsNot(setId));
    e.(sets := Filter(e.sets, SetIsNot(setId)))
  }

  /** `removeSetFromExercise(exerciseId, setId)`. */
  function RemoveSetFromExercise(w: StrengthWorkout, exerciseId: string, setId: string): (r: StrengthWorkout)
    ensures |r.exercises| == |w.exercises|
    ensures forall i :: 0 <= i < |w.exercises| && w.exercises[i].id != exerciseId ==> r.exercises[i] == w.exercises[i]
    ensures forall i :: 0 <= i < |w.exercises| && w.exercises[i].id == exerciseId ==>
      && r.exercises[i].(sets := w.exercises[i].sets) == w.exercises[i]
      && IsSubsequence(r.exercises[i].sets, w.exercises[i].sets)
      && (forall s :: s in r.exercises[i].sets ==> s.id != setId)
      && (forall k :: 0 <= k < |w.exercises[i].sets| && w.exercises[i].sets[k].id != setId ==>
            w.exercises[i].sets[k] in r.exercises[i].sets)
      && (forall x :: multiset(r.exercises[i].sets)[x] ==
            if x.id != setId then multiset(w.exercises[i].sets)[x] else 0)
    ensures r.(exercises := w.exercises) == w
  {
    w.(exercises := MapWhere(w.exercises, ExerciseIs(exerciseId), (e: StrengthExercise) => RemoveSetIn(e, setId)))
  }

  /** `updateSet(exerciseId, setId, updates)`. */
  function UpdateSet(w: StrengthWorkout, exerciseId: string, setId: string, u: SetPatch): (r: StrengthWorkout)
    ensures |r.exercises| == |w.exercises|
    ensures forall i :: 0 <= i < |w.exercises| && w.exercises[i].id != exerciseId ==> r.exercises[i] == w.exercises[i]
    ensures forall i :: 0 <= i < |w.exercises| && w.exercises[i].id == exerciseId ==>
      var before := w.exercises[i].sets;
      && r.exercises[i].(sets := before) == w.exercises[i]
      && |r.exercises[i].sets| == |before|
      && forall k :: 0 <= k < |before| ==>
           r.exercises[i].sets[k] == if before[k].id == setId then MergeSet(before[k], u) else before[k]
    ensures r.(exercises := w.exercises) == w
  {
    w.(exercises := MapWhere(w.exercises, ExerciseIs(exerciseId),
                             (e: StrengthExercise) => e.(sets := MapWhere(e.sets, SetIs(setId), (s: ExerciseSet) => MergeSet(s, u)))))
  }

  // ---------------------------------------------------------------------------
  // the muscle-group sidebar

  function InGroup(group: string): StrengthExercise -> bool {
    (e: StrengthExercise) => IncludesIgnoringCase(e.muscleGroup, group)
  }

  /** The count beside a palette group: exercises whose muscle group contains its name, ignoring case. */
  function MuscleGroupCount(exercises: seq<StrengthExercise>, group: string): (n: nat)
    ensures n <= |exercises|
  {
    Count(exercises, InGroup(group))
  }

  /** Adding an exercise raises exactly the counts of the groups its muscle group matches, by one. */
  lemma AddExerciseCount(w: StrengthWorkout, ex: Exercise, stamp: string, setStamp: string, group: string)
    ensures MuscleGroupCount(AddExerciseToWorkout(w, ex, stamp, setStamp).exercises, group)
         == MuscleGroupCount(w.exercises, group)
            + (if IncludesIgnoringCase(NewStrengthExercise(ex, stamp, setStamp).muscleGroup, group) then 1 else 0)
  {
    FilterConcat(w.exercises, [NewStrengthExercise(ex, stamp, setStamp)], InGroup(group));
  }

  /** Removing exercises never raises a count. */
  lemma RemoveExerciseCount(w: StrengthWorkout, id: string, group: string)
    ensures MuscleGroupCount(RemoveExerciseFromWorkout(w, id).exercises, group) <= MuscleGroupCount(w.exercises, group)
  {
    SubsequenceFilterLength(Filter(w.exercises, ExerciseIsNot(id)), w.exercises, InGroup(group));
  }

  lemma {:induction false} SubsequenceFilterLength<T>(a: seq<T>, b: seq<T>, p: T -> bool)
    requires IsSubsequence(a, b)
    ensures |Filter(a, p)| <= |Filter(b, p)|
    decreases |b|
  {
    if a != [] {
      FilterCons(b[0], b[1..], p);
      assert b == [b[0]] + b[1..];
      if a[0] == b[0] {
        SubsequenceFilterLength(a[1..], b[1..], p);
        FilterCons(a[0], a[1..], p);
        assert a == [a[0]] + a[1..];
      } else {
        SubsequenceFilterLength(a, b[1..], p);
      }
    }
  }

  // ---------------------------------------------------------------------------
  // properties relating several operations

  /** Removing the exercise just added, under a fresh stamp, restores the workout exactly. */
  lemma AddThenRemoveExercise(w: StrengthWorkout, ex: Exercise, stamp: string, setStamp: string)
    requires forall e :: e in w.exercises ==> e.id != stamp
    ensures RemoveExerciseFromWorkout(AddExerciseToWorkout(w, ex, stamp, setStamp), stamp) == w
  {
    var p := ExerciseIsNot(stamp);
    var added := NewStrengthExercise(ex, stamp, setStamp);
    FilterConcat(w.exercises, [added], p);
    FilterKeepsAll(w.exercises, p);
    assert Filter([added], p) == [];
  }

  /**
   * Updating a set id that no exercise with the exercise id holds is a no-op;
   * in particular when no exercise has that id.
   */
  lemma UpdateSetMissing(w: StrengthWorkout, exerciseId: string, setId: string, u: SetPatch)
    requires forall e :: e in w.exercises && e.id == exerciseId ==> forall s :: s in e.sets ==> s.id != setId
    ensures UpdateSet(w, exerciseId, setId, u) == w
  {
    var r := UpdateSet(w, exerciseId, setId, u);
    forall i | 0 <= i < |w.exercises| ensures r.exercises[i] == w.exercises[i] {
      var e := w.exercises[i];
      if e.id == exerciseId {
        MapWhereNoMatch(e.sets, SetIs(setId), (s: ExerciseSet) => MergeSet(s, u));
        assert r.exercises[i].sets == e.sets;
      }
    }
    assert r.exercises == w.exercises;
  }

  /** Removing the set just added under a fresh stamp restores the workout exactly. */
  lemma AddThenRemoveSet(w: StrengthWorkout, exerciseId: string, stamp: string)
    requires forall e :: e in w.exercises && e.id == exerciseId ==> forall s :: s in e.sets ==> s.id != stamp
    ensures RemoveSetFromExercise(AddSetToExercise(w, exerciseId, stamp), exerciseId, stamp) == w
  {
    var r := RemoveSetFromExercise(AddSetToExercise(w, exerciseId, stamp), exerciseId, stamp);
    forall i | 0 <= i < |w.exercises| ensures r.exercises[i] == w.exercises[i] {
      var e := w.exercises[i];
      if e.id == exerciseId {
        var p := SetIsNot(stamp);
        FilterConcat(e.sets, [DefaultSet(stamp)], p);
        FilterKeepsAll(e.sets, p);
        assert Filter([DefaultSet(stamp)], p) == [];
        assert r.exercises[i].sets == e.sets;
      }
    }
    assert r.exercises == w.exercises;
  }

  /** Every set reachable from a list of exercises, exercise by exercise. */
  function ReachableSets(exercises: seq<StrengthExercise>): seq<ExerciseSet> {
    if exercises == [] then [] else exercises[0].sets + ReachableSets(exercises[1..])
  }

  lemma {:induction false} ReachableSetsSplit(exercises: seq<StrengthExercise>, id: string)
    ensures multiset(ReachableSets(Filter(exercises, ExerciseIsNot(id))))
          + multiset(ReachableSets(Filter(exercises, ExerciseIs(id))))
         == multiset(ReachableSets(exercises))
  {
    if exercises != [] {
      var e := exercises[0];
      ReachableSetsSplit(exercises[1..], id);
      FilterCons(e, exercises[1..], ExerciseIsNot(id));
      FilterCons(e, exercises[1..], ExerciseIs(id));
      assert exercises == [e] + exercises[1..];
      var kept := Filter(exercises[1..], ExerciseIsNot(id));
      var gone := Filter(exercises[1..], ExerciseIs(id));
      if e.id == id {
        assert ReachableSets([e] + gone) == e.sets + ReachableSets(gone);
      } else {
        assert ReachableSets([e] + kept) == e.sets + ReachableSets(kept);
      }
    }
  }

  /**
   * Removing an exercise takes exactly its own sets with it: what remains
   * reachable plus the sets of the exercises with that id is what was
   * reachable before.
   */
  lemma RemoveExerciseCascades(w: StrengthWorkout, id: string)
    ensures multiset(ReachableSets(RemoveExerciseFromWorkout(w, id).exercises))
          + multiset(ReachableSets(Filter(w.exercises, ExerciseIs(id))))
         == multiset(ReachableSets(w.exercises))
  {
    ReachableSetsSplit(w.exercises, id);
  }

  /**
   * Adding an exercise to an empty workout gives one exercise with one default
   * set; adding a set makes two; removing the exercise leaves none.
   */
  lemma StrengthScenario(w: StrengthWorkout, ex: Exercise, stamp: string, setStamp: string, stamp2: string)
    requires w.exercises == []
    ensures
      var w1 := AddExerciseToWorkout(w, ex, stamp, setStamp);
      var w2 := AddSetToExercise(w1, stamp, stamp2);
      var w3 := RemoveExerciseFromWorkout(w2, stamp);
      && |w1.exercises| == 1 && w1.exercises[0].sets == [DefaultSet(setStamp + "_set1")]
      && w1.exercises[0].sets[0].reps == Some(10) && w1.exercises[0].sets[0].weight == Some(0.0)
      && w1.exercises[0].sets[0].restPeriod == Some(2.0)
      && |w2.exercises| == 1 && |w2.exercises[0].sets| == 2
      && w3.exercises == []
  {
    var w1 := AddExerciseToWorkout(w, ex, stamp, setStamp);
    var w2 := AddSetToExercise(w1, stamp, stamp2);
    assert w2.exercises[0].id == stamp;
    assert Filter(w2.exercises, ExerciseIsNot(stamp)) == [];
  }
}

=== FILE: text.dfy ===
/**
 * The string primitives the pages rely on: `toLowerCase`, `includes`, `trim`,
 * the code-point order that models `sort()` and `localeCompare`, and the decimal
 * rendering of a count inside a template literal.
 */
module Text {
  import opened Wrappers

  /** JavaScript truthiness of an optional string: present and not empty. */
  predicate Truthy(s: Option<string>) {
    s.Some? && s.value != ""
  }

  /** `toLowerCase` on one character; only the ASCII letters A-Z are folded. */
  function LowerChar(c: char): char {
    if 'A' <= c <= 'Z' then (c as int + 32) as char else c
  }

  /** `s.toLowerCase()`, character by character. */
  function Lower(s: string): (r: string)
    ensures |r| == |s|
    ensures forall i :: 0 <= i < |s| ==> r[i] == LowerChar(s[i])
  {
    if s == [] then [] else [LowerChar(s[0])] + Lower(s[1..])
  }

  /** Lower-casing twice is lower-casing once. */
  lemma LowerIdempotent(s: string)
    ensures Lower(Lower(s)) == Lower(s)
  {
    assert forall i :: 0 <= i < |s| ==> LowerChar(LowerChar(s[i])) == LowerChar(s[i]);
  }

  /** `s.includes(t)`: `t` occurs in `s` starting at some position. */
  predicate Contains(s: string, t: string) {
    t <= s || (s != [] && Contains(s[1..], t))
  }

  /** Reference definition of `includes`: some slice of `s` is `t`. */
  ghost predicate OccursAt(s: string, t: string, i: int) {
    0 <= i && i + |t| <= |s| && s[i..i + |t|] == t
  }

  lemma {:induction false} ContainsIffOccurs(s: string, t: string)
    ensures Contains(s, t) <==> exists i :: OccursAt(s, t, i)
  {
    if s == [] {
      if t == [] {
        assert OccursAt(s, t, 0);
      }
    } else {
      ContainsIffOccurs(s[1..], t);
      if t <= s {
        assert OccursAt(s, t, 0);
      }
      if Contains(s[1..], t) {
        var i :| OccursAt(s[1..], t, i);
        assert s[1..][i..i + |t|] == s[i + 1..i + 1 + |t|];
        assert OccursAt(s, t, i + 1);
      }
      forall i | OccursAt(s, t, i) ensures Contains(s, t) {
        if i == 0 {
          assert s[..|t|] == t;
        } else {
          assert s[1..][i - 1..i - 1 + |t|] == s[i..i + |t|];
          assert OccursAt(s[1..], t, i - 1);
        }
      }
    }
  }

  /** The empty search term is contained in every string. */
  lemma ContainsEmpty(s: string)
    ensures Contains(s, "")
  {
  }

  /** `a.toLowerCase().includes(b.toLowerCase())`: the case-insensitive search of every page. */
  predicate IncludesIgnoringCase(s: string, t: string) {
    Contains(Lower(s), Lower(t))
  }

  /** An empty search term matches every string. */
  lemma IncludesEmpty(s: string)
    ensures IncludesIgnoringCase(s, "")
  {
    assert Lower("") == "";
  }

  // ---------------------------------------------------------------------------
  // trim

  /** The characters String.prototype.trim removes: WhiteSpace and LineTerminator of ECMAScript. */
  predicate IsWhiteSpace(c: char) {
    c == '\t' || c == '\n' || c == '\U{000B}' || c == '\U{000C}' || c == '\r' || c == ' ' ||
    c == '\U{00A0}' || c == '\U{1680}' || ('\U{2000}' <= c <= '\U{200A}') ||
    c == '\U{2028}' || c == '\U{2029}' || c == '\U{202F}' || c == '\U{205F}' ||
    c == '\U{3000}' || c == '\U{FEFF}'
  }

  function TrimStart(s: string): (r: string)
    ensures r == [] || !IsWhiteSpace(r[0])
    ensures r == [] <==> forall i :: 0 <= i < |s| ==> IsWhiteSpace(s[i])
  {
    if s == [] then []
    else if IsWhiteSpace(s[0]) then TrimStart(s[1..])
    else s
  }

  function TrimEnd(s: string): (r: string)
    ensures r == [] <==> forall i :: 0 <= i < |s| ==> IsWhiteSpace(s[i])
  {
    if s == [] then []
    else if IsWhiteSpace(s[|s| - 1]) then TrimEnd(s[..|s| - 1])
    else s
  }

  /** `s.trim()`. */
  function Trim(s: string): string {
    TrimEnd(TrimStart(s))
  }

  /** `!s.trim()`: the string is empty once trimmed. */
  predicate IsBlank(s: string) {
    Trim(s) == ""
  }

  lemma BlankIffAllWhiteSpace(s: string)
    ensures IsBlank(s) <==> forall i :: 0 <= i < |s| ==> IsWhiteSpace(s[i])
  {
    var t := TrimStart(s);
    if t != [] {
      assert !IsWhiteSpace(t[0]);
    }
  }

  // ---------------------------------------------------------------------------
  // ordering

  /**
   * Code-point lexicographic comparison, negative/zero/positive as a JavaScript
   * comparator: the order of `Array.prototype.sort()` on strings.
   */
  function Compare(a: string, b: string): (r: int)
    ensures -1 <= r <= 1
  {
    if a == [] && b == [] then 0
    else if a == [] then -1
    else if b == [] then 1
    else if a[0] < b[0] then -1
    else if b[0] < a[0] then 1
    else Compare(a[1..], b[1..])
  }

  lemma {:induction false} CompareZeroIffEqual(a: string, b: string)
    ensures Compare(a, b) == 0 <==> a == b
  {
    if a != [] && b != [] && a[0] == b[0] {
      CompareZeroIffEqual(a[1..], b[1..]);
      assert a == [a[0]] + a[1..] && b == [b[0]] + b[1..];
    }
  }

  lemma {:induction false} CompareAntisymmetric(a: string, b: string)
    ensures Compare(a, b) == -Compare(b, a)
  {
    if a != [] && b != [] && a[0] == b[0] {
      CompareAntisymmetric(a[1..], b[1..]);
    }
  }

  lemma {:induction false} CompareTransitive(a: string, b: string, c: string)
    requires Compare(a, b) <= 0 && Compare(b, c) <= 0
    ensures Compare(a, c) <= 0
  {
    if a != [] && b != [] && c != [] && a[0] == b[0] && b[0] == c[0] {
      CompareTransitive(a[1..], b[1..], c[1..]);
    }
  }

  // ---------------------------------------------------------------------------
  // numbers in text

  function DigitChar(d: nat): char
    requires d < 10
  {
    ('0' as int + d) as char
  }

  predicate IsDigit(c: char) {
    '0' <= c <= '9'
  }

  /** The decimal rendering of a count, as `${n}` produces for a non-negative integer. */
  function NatToString(n: nat): (r: string)
    ensures r != []
    ensures forall i :: 0 <= i < |r| ==> IsDigit(r[i])
  {
    if n < 10 then [DigitChar(n)] else NatToString(n / 10) + [DigitChar(n % 10)]
  }

  /** Reads back a string of decimal digits. */
  function ParseDigits(s: string): nat
    requires forall i :: 0 <= i < |s| ==> IsDigit(s[i])
  {
    if s == [] then 0
    else
      var last := s[|s| - 1];
      assert IsDigit(last);
      ParseDigits(s[..|s| - 1]) * 10 + (last as int - '0' as int)
  }

  lemma {:induction false} ParseNatToString(n: nat)
    ensures ParseDigits(NatToString(n)) == n
  {
    if n >= 10 {
      ParseNatToString(n / 10);
      var s := NatToString(n);
      assert s[..|s| - 1] == NatToString(n / 10);
    }
  }
}

=== FILE: types.dfy ===
/**
 * The workout data model: running workouts made of segments (an interval
 * group nests intervals) and strength workouts made of exercises with sets,
 * plus the exercise catalogue entry. Optional fields are `Option`s; the
 * TypeScript field `type` is called `kind` here because `type` is a Dafny
 * keyword.
 */
module Types {
  import opened Wrappers

  datatype SegmentType = Warmup | Main | Interval | Recovery | Cooldown | IntervalGroup

  datatype IntervalType = Work | Rest | Recovery

  /** The RPE scale of `intensityLevel`: `1 | 2 | 3 | 4 | 5`. */
  type Intensity = x: int | 1 <= x <= 5 witness 1

  datatype HeartRateTarget = HeartRateTarget(min: real, max: real, zone: Option<string>)

  datatype RunningInterval = RunningInterval(
    id: string,
    name: string,
    duration: Option<real>,
    distance: Option<real>,
    pace: Option<string>,
    intensityLevel: Option<Intensity>,
    kind: IntervalType)

  /**
   * `repetitions` and `intervals` are optional on every segment: the type does
   * not tie them to `IntervalGroup`.
   */
  datatype RunningSegment = RunningSegment(
    id: string,
    kind: SegmentType,
    name: string,
    duration: Option<real>,
    distance: Option<real>,
    pace: Option<string>,
    targetHeartRate: Option<HeartRateTarget>,
    intensityLevel: Option<Intensity>,
    notes: Option<string>,
    repetitions: Option<int>,
    intervals: Option<seq<RunningInterval>>)

  datatype ExerciseType = Strength | Cardio | Flexibility | Other

  /** A catalogue exercise. */
  datatype Exercise = Exercise(
    id: string,
    name: string,
    kind: ExerciseType,
    muscleGroups: seq<string>,
    muscleGroup: string,
    instructions: Option<string>,
    description: Option<string>)

  /** Every field but the id is optional. */
  datatype ExerciseSet = ExerciseSet(
    id: string,
    reps: Option<int>,
    weight: Option<real>,
    restPeriod: Option<real>,
    completed: Option<bool>,
    notes: Option<string>)

  /** Sets are kept in display (insertion) order. */
  datatype StrengthExercise = StrengthExercise(
    id: string,
    name: string,
    muscleGroup: string,
    description: string,
    sets: seq<ExerciseSet>)

  /** The running builder's state. Its lists are always present in the builder. */
  datatype RunningWorkout = RunningWorkout(
    id: Option<string>,
    name: string,
    description: string,
    segments: seq<RunningSegment>,
    totalDistance: Option<real>,
    estimatedDuration: Option<real>,
    warmupStretches: seq<Exercise>,
    cooldownStretches: seq<Exercise>,
    notes: Option<string>,
    assignedAthletes: seq<string>,
    scheduledDate: Option<string>)

  /** The strength builder's state. Exercises are kept in display order. */
  datatype StrengthWorkout = StrengthWorkout(
    id: Option<string>,
    name: string,
    description: string,
    exercises: seq<StrengthExercise>,
    warmupExercises: seq<StrengthExercise>,
    notes: Option<string>,
    assignedAthletes: seq<string>,
    scheduledDate: Option<string>)

  /** The string literal of each exercise type, as filters and listings see it. */
  function ExerciseTypeName(t: ExerciseType): string {
    match t
    case Strength => "strength"
    case Cardio => "cardio"
    case Flexibility => "flexibility"
    case Other => "other"
  }

  /** The `value` of each option of an interval's type selector. */
  function IntervalTypeValue(t: IntervalType): string {
    match t
    case Work => "work"
    case Rest => "rest"
    case Recovery => "recovery"
  }

  /** `e.target.value as 'work' | 'rest' | 'recovery'`: the selector's value read back. */
  function ParseIntervalType(v: string): (r: Option<IntervalType>)
    ensures r.Some? ==> IntervalTypeValue(r.value) == v
  {
    if v == "work" then Some(Work)
    else if v == "rest" then Some(Rest)
    else if v == "recovery" then Some(IntervalType.Recovery)
    else None
  }

  lemma IntervalTypeRoundTrip(t: IntervalType)
    ensures ParseIntervalType(IntervalTypeValue(t)) == Some(t)
  {
  }

  lemma ExerciseTypeNamesDistinct(a: ExerciseType, b: ExerciseType)
    ensures ExerciseTypeName(a) == ExerciseTypeName(b) <==> a == b
  {
  }
}

=== FILE: workouts.dfy ===
/**
 * The coach's workout list: the search, status and type filters, the status
 * badge, the summary tiles and the assignment label of each card.
 */
module WorkoutList {
  import opened Wrappers
  import opened Seqs
  import opened Text

  /** A workout card's data. Status and type are the strings the selectors compare. */
  datatype WorkoutSummary = WorkoutSummary(
    id: string,
    name: string,
    description: string,
    status: string,
    kind: string,
    scheduledDate: Option<string>,
    assignedAthletes: seq<string>,
    exerciseCount: int,
    estimatedDuration: int,
    createdAt: string)

  /** The callback of `filteredWorkouts`: search in name or description, status and type fit. */
  predicate MatchesWorkout(w: WorkoutSummary, searchTerm: string, statusFilter: string, typeFilter: string) {
    && (IncludesIgnoringCase(w.name, searchTerm) || IncludesIgnoringCase(w.description, searchTerm))
    && (statusFilter == "all" || w.status == statusFilter)
    && (typeFilter == "all" || w.kind == typeFilter)
  }

  function Matching(searchTerm: string, statusFilter: string, typeFilter: string): WorkoutSummary -> bool {
    (w: WorkoutSummary) => MatchesWorkout(w, searchTerm, statusFilter, typeFilter)
  }

  /** `filteredWorkouts`: the matching workouts in list order. */
  function FilterWorkouts(workouts: seq<WorkoutSummary>, searchTerm: string, statusFilter: string, typeFilter: string)
    : (r: seq<WorkoutSummary>)
    ensures forall w :: w in r <==> w in workouts && MatchesWorkout(w, searchTerm, statusFilter, typeFilter)
    ensures forall w :: multiset(r)[w] ==
                        if MatchesWorkout(w, searchTerm, statusFilter, typeFilter) then multiset(workouts)[w] else 0
    ensures IsSubsequence(r, workouts)
  {
    FilterMultiset(workouts, Matching(searchTerm, statusFilter, typeFilter));
    Filter(workouts, Matching(searchTerm, statusFilter, typeFilter))
  }

  /** The initial state of the page (no search, "all", "all") lists every workout. */
  lemma NeutralFiltersKeepAll(workouts: seq<WorkoutSummary>)
    ensures FilterWorkouts(workouts, "", "all", "all") == workouts
  {
    forall i | 0 <= i < |workouts| ensures Matching("", "all", "all")(workouts[i]) {
      IncludesEmpty(workouts[i].name);
    }
    FilterKeepsAll(workouts, Matching("", "all", "all"));
  }

  // ---------------------------------------------------------------------------
  // status badge

  datatype StatusDisplay = StatusDisplay(color: string, text: string)

  /** `getStatusDisplay(status)`. */
  function GetStatusDisplay(status: string): (d: StatusDisplay)
    ensures status == "draft" ==> d == StatusDisplay("bg-gray-100 text-gray-800", "Draft")
    ensures status == "assigned" ==> d == StatusDisplay("bg-blue-100 text-blue-800", "Assigned")
    ensures status == "completed" ==> d == StatusDisplay("bg-green-100 text-green-800", "Completed")
    ensures d.text == "Unknown" <==> status !in {"draft", "assigned", "completed"}
  {
    if status == "draft" then StatusDisplay("bg-gray-100 text-gray-800", "Draft")
    else if status == "assigned" then StatusDisplay("bg-blue-100 text-blue-800", "Assigned")
    else if status == "completed" then StatusDisplay("bg-green-100 text-green-800", "Completed")
    else StatusDisplay("bg-gray-100 text-gray-800", "Unknown")
  }

  /** The badge text tells the known statuses apart; an unknown status shares only the draft colour. */
  lemma StatusTextDistinguishes(s: string, t: string)
    requires s in {"draft", "assigned", "completed"}
    ensures GetStatusDisplay(s).text == GetStatusDisplay(t).text <==> s == t
  {
  }

  // ---------------------------------------------------------------------------
  // summary tiles

  function HasStatus(status: string): WorkoutSummary -> bool {
    (w: WorkoutSummary) => w.status == status
  }

  /** A tile's number: `mockWorkouts.filter(w => w.status === status).length`. */
  function CountStatus(workouts: seq<WorkoutSummary>, status: string): (n: nat)
    ensures n <= |workouts|
  {
    Count(workouts, HasStatus(status))
  }

  predicate KnownStatus(w: WorkoutSummary) {
    w.status == "assigned" || w.status == "completed" || w.status == "draft"
  }

  /**
   * The three status tiles never add up to more than the total tile, and add
   * up to it exactly when every workout has one of the three statuses.
   */
  lemma {:induction false} StatusTilesPartitionTotal(workouts: seq<WorkoutSummary>)
    ensures CountStatus(workouts, "assigned") + CountStatus(workouts, "completed") + CountStatus(workouts, "draft")
            <= |workouts|
    ensures (CountStatus(workouts, "assigned") + CountStatus(workouts, "completed") + CountStatus(workouts, "draft")
             == |workouts|) <==> forall i :: 0 <= i < |workouts| ==> KnownStatus(workouts[i])
  {
    if workouts != [] {
      var w := workouts[0];
      var rest := workouts[1..];
      assert workouts == [w] + rest;
      StatusTilesPartitionTotal(rest);
      CountStatusCons(w, rest, "assigned");
      CountStatusCons(w, rest, "completed");
      CountStatusCons(w, rest, "draft");
      AllKnownCons(workouts);
    }
  }

  lemma CountStatusCons(w: WorkoutSummary, rest: seq<WorkoutSummary>, status: string)
    ensures CountStatus([w] + rest, status) == (if w.status == status then 1 else 0) + CountStatus(rest, status)
  {
    FilterCons(w, rest, HasStatus(status));
  }

  lemma AllKnownCons(workouts: seq<WorkoutSummary>)
    requires workouts != []
    ensures (forall i :: 0 <= i < |workouts| ==> KnownStatus(workouts[i]))
        <==> KnownStatus(workouts[0]) && forall i :: 0 <= i < |workouts| - 1 ==> KnownStatus(workouts[1..][i])
  {
    assert forall i :: 1 <= i < |workouts| ==> workouts[i] == workouts[1..][i - 1];
  }

  /** A status tile counts what the list shows under that status with no search and every type. */
  lemma CountStatusIsListing(workouts: seq<WorkoutSummary>, status: string)
    requires status != "all"
    ensures CountStatus(workouts, status) == |FilterWorkouts(workouts, "", status, "all")|
  {
    forall w: WorkoutSummary ensures Matching("", status, "all")(w) == HasStatus(status)(w) {
      IncludesEmpty(w.name);
    }
    FilterSamePredicate(workouts, Matching("", status, "all"), HasStatus(status));
  }

  // ---------------------------------------------------------------------------
  // assignment label

  /** `${n} athletes` for a non-empty assignment, "Not assigned" otherwise. */
  function AssignmentLabel(assignedAthletes: seq<string>): (r: string)
    ensures r == "Not assigned" <==> assignedAthletes == []
  {
    if |assignedAthletes| > 0 then
      var digits := NatToString(|assignedAthletes|);
      assert (digits + " athletes")[0] == digits[0];
      digits + " athletes"
    else "Not assigned"
  }

  /** The number in front of " athletes" reads back as the number of assigned athletes. */
  lemma AssignmentLabelReadsBack(assignedAthletes: seq<string>)
    requires assignedAthletes != []
    ensures var r := AssignmentLabel(assignedAthletes);
            && |r| > 9 && r[|r| - 9..] == " athletes"
            && (forall i :: 0 <= i < |r| - 9 ==> IsDigit(r[i]))
            && ParseDigits(r[..|r| - 9]) == |assignedAthletes|
  {
    var digits := NatToString(|assignedAthletes|);
    var r := digits + " athletes";
    assert r[..|r| - 9] == digits;
    assert r[|r| - 9..] == " athletes";
    ParseNatToString(|assignedAthletes|);
  }
}

=== FILE: wrappers.dfy ===
/** Optional values: JavaScript's `undefined`/`null` for a field or a lookup that finds nothing. */
module Wrappers {

  datatype Option<+T> = None | Some(value: T) {

    /** The value, or `default` when absent (the `x || default` and `x ?? default` idioms). */
    function GetOr(default: T): T {
      match this
      case Some(v) => v
      case None => default
    }
  }
}
